=== FILE: README.md ===
# Postman collection enrichment, modelled in Dafny

The system takes a Postman collection and an enrichment configuration, and runs a
fixed sequence of stages over the collection's item tree. Each stage is gated on
its own configuration section:

- **filter** keeps only the endpoints the allow-list names and prunes folders left empty;
- **descriptions** renames and describes the collection, describes folders, and describes
  every request, generating a sentence when no text is configured;
- **examples** merges configured JSON bodies into request bodies and adds response examples;
- **variables** clears the collection variables, fills URL path variables, points every
  host at a base-URL variable, sets query values, and adds an environment-check script;
- **tests** appends a method-specific test script to every request.

Three more stages are modelled but are not called by the orchestrator:

- **organize** rebuilds the tree as nested resource folders;
- **pathVariables** points mapped URL variables at collection variables;
- **preserveIds** carries ids over from a previous version of the collection.

The model is made of these pieces:

- Items form a tree. A folder carries `children` (the `item` array) and a request carries
  `request`.
- The in-place `walkCollection(items, handler)` becomes the pre-order visit sequence
  `Walker.Walk`, together with a pure rewrite `Walker.MapTree`.
- Every stage is a pure function from collection to collection.
- The variables stage, and with it the orchestrator, returns a `Result`. The source throws
  at one point, when it assigns `host` on a string URL.
- JavaScript objects used as dictionaries are `Records.Record`: entry sequences in key order.
  A read returns the first entry with the key.
- `JSON.parse` and `JSON.stringify` are the two fields of a `Json.Codec` parameter.

Modules, in dependency order:

- `Wrappers` (Option, Result)
- `Strings`
- `Records`
- `Json`
- `Types`
- `Walker`
- `Matcher`
- `Organize`
- `Filter`
- `Descriptions`
- `Examples`
- `Variables`
- `PathVariables`
- `Tests`
- `PreserveIds`
- `Pipeline`

## Model

| member | source | states |
|---|---|---|
| Walker.Walk | packages/shared/src/walker.ts:13-28 | Definition of the visit order: each item, then its `item` array walked recursively, then the next sibling. WalkCollection, WalkSize, WalkVisitsReachable, WalkAppend and WalkParentFirst state its properties. |
| Walker.WalkCollection | packages/shared/src/walker.ts:13-28 | A missing array visits nothing; otherwise the handler is called exactly once per item occurrence in the tree. |
| Walker.WalkSize | packages/shared/src/walker.ts:19-27 | The number of handler calls equals the number of item occurrences in the tree. |
| Walker.WalkVisitsReachable | packages/shared/src/walker.ts:19-27 | An item is visited if and only if it is reachable through `item` arrays at some depth. |
| Walker.WalkAppend | packages/shared/src/walker.ts:19-27 | Siblings are walked in array order: walking `a + b` walks `a`, then `b`. |
| Walker.WalkParentFirst | packages/shared/src/walker.ts:21-26 | An item with an `item` array is immediately followed, in the visit order, by the complete walk of its children. |
| Walker.IsFolder | packages/shared/src/walker.ts:44-46 | A folder is never a request; a non-request is a folder exactly when it has an `item` array. |
| Walker.IsRequest | packages/shared/src/walker.ts:35-37 | Definition: an item is a request exactly when it carries a `request`. IsFolder's contract relates the two tests. |
| Walker.GetRequestMethod | packages/shared/src/walker.ts:53-55 | The result is never empty: it is the request's method, or GET when there is no request or the method is empty. |
| Walker.GetUrlPath | packages/shared/src/walker.ts:62-81 | A string URL is itself; an array path is joined under a leading `/`; a non-empty string path is returned as is; otherwise the `raw` text is used, else "". |
| Walker.MapTree | packages/shared/src/walker.ts:13-28 | A walk whose handler rewrites each visited item in place, as a pure function: the rewritten list has the same length. MapTreeVisits states the position-by-position effect. |
| Walker.MapTreeVisits | packages/shared/src/walker.ts:13-28 | An in-place walk with handler `f` makes the i-th visited item equal `f` of the i-th item visited before, children aside. |
| Walker.MapTreeIdentity | packages/shared/src/walker.ts:13-28 | A handler that leaves every visited item unchanged leaves the tree unchanged. |
| Walker.MapTreeKeepsEndpoints | packages/shared/src/walker.ts:13-28 | A handler that keeps every item's method and URL path keeps them at every position of the walk. |
| Walker.MapTreeThen | packages/shared/src/walker.ts:13-28 | Two walks in a row act on each visited item as the composition of their handlers. |
| Matcher.NormalizePath | packages/shared/src/matcher.ts:12-31 | Definition of the left-to-right replacement of each `{...}` group. NormalizePrefix, NormalizeNoGroup, NormalizeGroup, NormalizeCopies, NormalizeEmptyBraces and NormalizeTrailingGroup state its behaviour. |
| Matcher.GroupEnd | packages/shared/src/matcher.ts:19 | Where `\{[^}]+\}` matches at the start: the index of the first `}`, with at least one character before it; no match when there is no `}` or it comes right after the `{`. |
| Matcher.FirstRule | packages/shared/src/matcher.ts:21-25 | The first rule, in declaration order, whose pattern the group contains, or none when no pattern occurs. |
| Matcher.ReplaceGroup | packages/shared/src/matcher.ts:19-28 | A group with no matching rule becomes `:` and its inner text; otherwise it becomes the first matching rule's replacement. |
| Matcher.NormalizePrefix | packages/shared/src/matcher.ts:16-28 | Text before the first `{` is copied unchanged. |
| Matcher.NormalizeNoGroup | packages/shared/src/matcher.ts:16-28 | A path with no `{` or no `}` is returned unchanged; `:name` segments stay as they are. |
| Matcher.NormalizeGroup | packages/shared/src/matcher.ts:19-28 | A leading `{inner}` is replaced as a whole, and normalisation continues after its `}`. |
| Matcher.NormalizeCopies | packages/shared/src/matcher.ts:19 | A character that does not start a group is copied. |
| Matcher.NormalizeEmptyBraces | packages/shared/src/matcher.ts:19 | `{}` is not a group: both braces are kept. |
| Matcher.NormalizeTrailingGroup | packages/shared/src/matcher.ts:19-28 | A path ending in its only group keeps its prefix and replaces the group. |
| Matcher.NormalizeDefaultExample | packages/shared/src/matcher.ts:27 | With no rules, `/users/{id}` becomes `/users/:id`. |
| Matcher.NormalizeRuleExample | packages/shared/src/matcher.ts:21-25 | A rule whose pattern occurs in the group supplies the replacement. |
| Matcher.NormalizeRuleOrderExample | packages/shared/src/matcher.ts:21-25 | Rules are tried in declaration order, and a pattern may contain the braces. |
| Matcher.EndpointKey | packages/shared/src/matcher.ts:47-48 | Definition of the allow-list key: the method, one blank, then the normalised path. ShouldIncludeEndpoint's contract is stated over it. |
| Matcher.ShouldIncludeEndpoint | packages/shared/src/matcher.ts:41-50 | A key the allow-list lacks gives false; a true verdict means the list has the pair (key, true); the first entry with the key decides. |
| Organize.FlattenRequests | packages/core/src/enrichers/organize.ts:41-53 | Only requests are collected. |
| Organize.FlattenIsWalkedRequests | packages/core/src/enrichers/organize.ts:41-53 | When no request has children, flattening yields exactly the walked requests, in walk order. |
| Organize.ExtractSegments | packages/core/src/enrichers/organize.ts:106-114 | The kept segments are exactly the pieces between slashes that are non-empty, do not end in `:`, and, when path parameters are excluded, start with neither `:` nor `{`; none contains a slash. |
| Organize.KeepSegments | packages/core/src/enrichers/organize.ts:109-113 | The two `filter` calls on one segment keep it exactly when it passes both tests, and never lengthen the list. |
| Organize.KeepSegmentsAppend | packages/core/src/enrichers/organize.ts:109-113 | The filter keeps order and multiplicity: filtering a concatenation filters each part and concatenates the results, so the folder chain follows the path order. |
| Organize.Truncate | packages/core/src/enrichers/organize.ts:21 | The result is always a prefix. A missing or zero level keeps everything; a positive level keeps at most that many; a negative level drops that many from the end. |
| Organize.BuildResourceHierarchy | packages/core/src/enrichers/organize.ts:55-104 | Definition: the requests are placed one by one into an initially empty list of top-level folders. BuildPlacesEachRequestOnce, BuildRespectsNesting and BuildHasUniqueFolderNames state its properties. |
| Organize.BuildPlacesEachRequestOnce | packages/core/src/enrichers/organize.ts:55-104 | As a multiset, the built tree files each placeable request exactly once, under the folder chain its segments name. |
| Organize.BuildRespectsNesting | packages/core/src/enrichers/organize.ts:67-72 | With a positive nesting level, each request sits under at least one and at most that many folders. |
| Organize.BuildHasUniqueFolderNames | packages/core/src/enrichers/organize.ts:79-93 | No two sibling folders share a name, at any level. |
| Organize.OrganizeByResources | packages/core/src/enrichers/organize.ts:12-36 | A disabled stage, or any strategy other than "resources", is the identity. With "resources", the items become the hierarchy built from the flattened requests when it is non-empty, and stay as they were otherwise; info, variables and events are kept. |
| Organize.OrganizeFilesEachRequestOnce | packages/core/src/enrichers/organize.ts:16-35 | With "resources" and some placeable request, the returned tree files each placeable request exactly once under its segments, no deeper than a positive nesting level; with none, the collection is returned unchanged. |
| Filter.FilterItems | packages/core/src/enrichers/filter.ts:31-66 | The filtered list is never longer than the input. FilterAppend, FilterKeepsExactlyIncluded, FilterPrunesEmptyFolders and FilterIdempotent state its properties. |
| Filter.FilterOne | packages/core/src/enrichers/filter.ts:35-64 | A request is kept unchanged if and only if the allow-list admits it. A non-folder non-request passes through. A kept folder keeps its own fields. |
| Filter.FilterAppend | packages/core/src/enrichers/filter.ts:31-66 | Sibling order is kept: filtering `a + b` filters each part. |
| Filter.FilterKeepsExactlyIncluded | packages/core/src/enrichers/filter.ts:31-66 | The requests of the filtered tree are exactly the admitted requests of the input, in order. |
| Filter.FilterPrunesEmptyFolders | packages/core/src/enrichers/filter.ts:52-61 | Every folder left in the filtered tree, at any depth, has children. |
| Filter.FilterIdempotent | packages/core/src/enrichers/filter.ts:31-66 | Filtering twice with the same allow-list is the same as filtering once. |
| Filter.FilterAdmitsOnlyIncluded | packages/core/src/enrichers/filter.ts:31-66 | When no request has children, every request the walker reaches in the filtered tree is admitted. |
| Filter.FilterEndpoints | packages/core/src/enrichers/filter.ts:23-80 | With no allow-list the collection is returned unchanged. Otherwise the items are filtered and variables, events and info other than the description are kept. A truthy note is appended to the description after a blank line, and there is no change without one. |
| Filter.CountRequests | packages/cli/src/index.ts:143-159 | Definition of `countRequests`: a request counts one and a folder counts its children. CountIsFlattenLength and FilterCount state its properties. |
| Filter.CountIsFlattenLength | packages/cli/src/index.ts:143-159 | The command line's request count equals the number of requests the organize stage flattens. |
| Filter.FilterCount | packages/cli/src/index.ts:143-159 | After filtering, the count is the number of admitted requests, so it never exceeds the count before. |
| Descriptions.FirstNameMatch | packages/core/src/enrichers/descriptions.ts:30-32 | The first configured key whose lower-case form occurs in the lower-case collection name, or none when no key does. |
| Descriptions.CollectionInfo | packages/core/src/enrichers/descriptions.ts:29-46 | For the first matching non-empty key, a truthy name replaces the collection name and a truthy description becomes a markdown description. Without such a key nothing changes; schema and id never change. |
| Descriptions.CollectionKeyLookup | packages/core/src/enrichers/descriptions.ts:34-35 | The chosen entry is the one `config.collection[key]` reads. |
| Descriptions.CleanKey | packages/core/src/enrichers/descriptions.ts:60 | The cleaned key contains none of `{`, `}`, `:`, is no longer than the name, and is the lower-case name itself when the name has none of them. |
| Descriptions.CleanKeyAppend | packages/core/src/enrichers/descriptions.ts:60 | Cleaning works character by character: the cleaned key of a concatenation is the concatenation of the cleaned keys, so every other character is kept, lower-cased, in order. |
| Strings.RemoveCharsAppend | packages/core/src/enrichers/descriptions.ts:60 | `replace(/[...]/g, '')` removes from a concatenation part by part, keeping the survivors of each part in order. |
| Descriptions.FolderText | packages/core/src/enrichers/descriptions.ts:52-64 | A folder's text is non-empty and configured, under its lower-case name or its cleaned key. The exact name wins when its text is truthy. There is no text exactly when neither lookup is truthy. |
| Descriptions.FolderHandler | packages/core/src/enrichers/descriptions.ts:50-66 | A folder with a text gets it as a plain-string description; every other item, and a folder without a text, is returned unchanged. |
| Descriptions.FolderStepEffect | packages/core/src/enrichers/descriptions.ts:49-67 | At every position of the walk, a folder with a text gains it as its description; every other item is unchanged. |
| Descriptions.Lead | packages/core/src/enrichers/descriptions.ts:98-113 | A generated sentence has a lead exactly for GET, POST, PUT, PATCH and DELETE, matched case-sensitively. |
| Descriptions.Subject | packages/core/src/enrichers/descriptions.ts:99-112 | GET strips `get` then `list`, POST `create` then `add`, PUT and PATCH `update`, DELETE `delete` then `remove`, each only when white space follows; other methods keep the name. The result is always a suffix of the lower-case name. |
| Descriptions.GenericDescription | packages/core/src/enrichers/descriptions.ts:97-119 | The sentence is never empty. A listed method gives its lead followed by the subject that method strips from the lower-case name; any other method gives "Perform M operation on name". |
| Descriptions.GenericGetExample | packages/core/src/enrichers/descriptions.ts:99-102 | "get" then "list" are stripped in order: "Get List Users" gives "Retrieve users". |
| Descriptions.GenericDeleteExample | packages/core/src/enrichers/descriptions.ts:109-112 | A word not followed by white space is kept: "Remove" gives "Delete remove". |
| Descriptions.GenericUnlistedExample | packages/core/src/enrichers/descriptions.ts:115-118 | A lower-case "get" is not listed and falls through to the "Perform" form. |
| Descriptions.RequestText | packages/core/src/enrichers/descriptions.ts:75-82 | A request's text is never empty: the truthy configured text for its exact name, else the generated sentence. |
| Descriptions.RequestHandler | packages/core/src/enrichers/descriptions.ts:71-85 | A request's `request.description` becomes its text; nothing else about the request or the item changes; a non-request is returned unchanged. |
| Descriptions.RequestStepEffect | packages/core/src/enrichers/descriptions.ts:70-86 | At every position of the walk, a request's `request.description` becomes its text; every other field of the request (method, URL, headers, body) and of the item is unchanged, and non-requests are unchanged. |
| Descriptions.AddDescriptions | packages/core/src/enrichers/descriptions.ts:22-89 | Without a configuration nothing changes. Variables and events are always kept. The info follows the collection rule. The items go through the folder walk when folder texts are configured, then through the request walk when request texts are configured, so FolderStepEffect and RequestStepEffect describe the result. |
| Descriptions.DescriptionsKeepEndpoints | packages/core/src/enrichers/descriptions.ts:49-86 | No method or URL changes: the endpoint at every position of the walk is the same. |
| Examples.DefaultStatus | packages/core/src/enrichers/examples.ts:72-81 | DELETE gives "No Content", POST gives "Created", every other method gives "OK". |
| Examples.DefaultStatusCode | packages/core/src/enrichers/examples.ts:88-97 | DELETE gives 204, POST gives 201, every other method gives 200. |
| Examples.DefaultResponseExample | packages/core/src/enrichers/examples.ts:104-150 | Status and code agree with the two tables. DELETE is a bodiless "No Content" with no headers. POST is "Created" with the created-resource sample. Every other method is "Success" with the resource sample, a JSON content type and a JSON preview. |
| Examples.ConfiguredResponse | packages/core/src/enrichers/examples.ts:48-57 | Falsy configured fields fall back to "Success" and the method's status and code, so none is empty. The header is JSON, and a body exists exactly when one is configured, stringified. |
| Examples.MergedRaw | packages/core/src/enrichers/examples.ts:35-43 | The raw body changes only when it is non-empty, the override is truthy and the body parses; it is then the pretty-printed spread of body and override. A parse failure leaves it as it was. |
| Json.Merge | packages/core/src/enrichers/examples.ts:38 | The spread is an object in which every key of the override holds the override's last value for it, and every other key reads as in the base. |
| Examples.ExampleHandler | packages/core/src/enrichers/examples.ts:28-62 | Non-requests are untouched. A request keeps everything but its body text and responses, and it always ends with at least one response. That is the configured one, the existing ones, or the default for its method. |
| Examples.AddExamples | packages/core/src/enrichers/examples.ts:22-65 | Without a configuration nothing changes; otherwise info, variables and events are kept and every item goes through the handler. |
| Examples.ExamplesEffect | packages/core/src/enrichers/examples.ts:22-65 | At every position of the walk, folders are unchanged and every request ends with a non-empty response list. |
| Examples.ExamplesKeepEndpoints | packages/core/src/enrichers/examples.ts:28-62 | The endpoint at every position of the walk is unchanged. |
| Variables.FindVariable | packages/core/src/enrichers/variables.ts:48-50 | `findIndex`: the first variable with the key, or -1 exactly when there is none. |
| Variables.FindParam | packages/core/src/enrichers/variables.ts:83 | `findIndex`: the first parameter with the key, or -1 exactly when there is none. |
| Variables.UpsertVariable | packages/core/src/enrichers/variables.ts:58-62 | The variable replaces the first entry with its key, or is appended. Other entries and other keys' positions are unchanged. |
| Variables.PathVariablesEffect | packages/core/src/enrichers/variables.ts:41-64 | After all configured entries, every configured name the path mentions as `:name` is set with its value and description. Other keys are found where they were, and every entry not overwritten is untouched. Every entry past the original list is a wanted variable that was missing before, and is the first with its key, so each is appended once and nothing else is appended. |
| Variables.SetParam | packages/core/src/enrichers/variables.ts:81-95 | No parameter is inserted or reordered. Only the first parameter with the key changes: it takes the value, is enabled, and keeps its description when that is truthy. |
| Variables.QueryParamsEffect | packages/core/src/enrichers/variables.ts:77-96 | Length and keys are kept. A parameter is rewritten exactly when it is the first with a configured key, with that key's value. |
| Variables.EnvScript | packages/core/src/enrichers/variables.ts:102-112 | The script has one check per environment key, in order, between the validation comment and the timestamp line, with four lines in all beyond the checks. |
| Variables.PathHandler | packages/core/src/enrichers/variables.ts:29-66 | A request with an array `path` keeps everything except its URL's variable list, which becomes the upserted list; any other item is returned unchanged. |
| Variables.HostHandler | packages/core/src/enrichers/variables.ts:70-74 | A request with a URL object keeps everything except its host, which becomes `["{{base}}"]`; any other item is returned unchanged. |
| Variables.QueryHandler | packages/core/src/enrichers/variables.ts:78-94 | A request with a query list keeps everything except that list, which becomes the list with the configured values set; any other item is returned unchanged. |
| Variables.SetupVariables | packages/core/src/enrichers/variables.ts:18-125 | Without a configuration nothing changes. On success the collection variables are cleared, the info is kept, and the environment script is appended exactly when there are environment keys. Failure carries the host error. |
| Variables.VariablesFailure | packages/core/src/enrichers/variables.ts:70-74 | The stage fails exactly when some visited request has a non-empty string URL, on which the host assignment throws. |
| Variables.VariablesVisits | packages/core/src/enrichers/variables.ts:29-94 | On success, at every position of the walk the item is the path, host and query handlers applied in turn to the original. |
| Variables.VariablesEffect | packages/core/src/enrichers/variables.ts:28-97 | On success, non-requests are unchanged at every position of the walk, and every request with a URL object has its host set. |
| Variables.VariablesKeepEndpoints | packages/core/src/enrichers/variables.ts:28-97 | On success, no method, path or raw URL changes: the endpoints line up. |
| PathVariables.MapVariable | packages/core/src/enrichers/pathVariables.ts:26-36 | A mapped variable takes the mapping's reference as its value and a truthy mapped description, keeping its old one otherwise. An unmapped variable is unchanged. Key, type and disabled flag always stay. |
| PathVariables.MapVariables | packages/core/src/enrichers/pathVariables.ts:26-36 | Same length and order; every position keeps its key and kind; an unmapped variable is unchanged; a mapped one takes the reference and, when truthy, the mapping's description. |
| PathVariables.PathVariableHandler | packages/core/src/enrichers/pathVariables.ts:19-37 | A request whose URL object has a variable list keeps everything except that list, which becomes the mapped list; any other item is returned unchanged. |
| PathVariables.SetupPathVariables | packages/core/src/enrichers/pathVariables.ts:11-40 | A disabled or missing configuration is the identity; otherwise the items are the walk with PathVariableHandler. Info, variables and events are always kept. |
| PathVariables.PathVariablesEffect | packages/core/src/enrichers/pathVariables.ts:19-37 | At every position of the walk, the item is the handler applied to the original. Only requests with a URL object carrying variables change. In them only the URL's variable list changes: it keeps its length, order and keys; a mapped variable takes the reference and a truthy mapped description and keeps its other fields; an unmapped one is unchanged. |
| Tests.TestTemplate | packages/core/src/enrichers/tests.ts:53-99 | A template exists exactly for the five listed methods, matched case-sensitively, and is never empty. GET has 7 lines and DELETE 3. |
| Tests.TestHandler | packages/core/src/enrichers/tests.ts:27-43 | A request with a template gets exactly one test event appended after its existing events, created if missing. Everything else is unchanged. |
| Tests.AddTests | packages/core/src/enrichers/tests.ts:21-46 | Unless `auto` is true the stage is the identity; info, variables and events are always kept. |
| Tests.TestsEffect | packages/core/src/enrichers/tests.ts:27-43 | At every position of the walk, a request with a template ends with its method's test event, and other items are unchanged. |
| Tests.TestsKeepEndpoints | packages/core/src/enrichers/tests.ts:27-43 | The endpoint at every position of the walk is unchanged. |
| PreserveIds.ItemKey | packages/core/src/enrichers/preserveIds.ts:60-66 | A request's key is method, `_`, name; anything else is `folder_`, name. |
| PreserveIds.ItemKeyCollision | packages/core/src/enrichers/preserveIds.ts:60-66 | The key is not injective: a request whose method is "folder" shares its key with a folder of the same name. |
| PreserveIds.BuildIdMap | packages/core/src/enrichers/preserveIds.ts:47-58 | Definition: the walk's non-empty ids are assigned in visit order under their item keys. BuildIdMapLookup states what each key reads. |
| PreserveIds.BuildIdMapLookup | packages/core/src/enrichers/preserveIds.ts:47-58 | Each key maps to the id of the last visited item with that key and a truthy id, so a mapped id is never empty. |
| PreserveIds.RestoreId | packages/core/src/enrichers/preserveIds.ts:33-39 | Only the id can change: it becomes the mapped id when that is truthy, else the item is unchanged. |
| PreserveIds.PreserveIds | packages/core/src/enrichers/preserveIds.ts:13-45 | A missing prior collection changes nothing. The collection id is taken from the prior one when that is truthy, and no other part of the info, variables or events changes. |
| PreserveIds.PreserveIdsEffect | packages/core/src/enrichers/preserveIds.ts:33-39 | At every position of the walk, only ids change, and an item whose key is mapped takes the mapped id. |
| PreserveIds.PreserveAgainstItself | packages/core/src/enrichers/preserveIds.ts:13-58 | When no two items share a key, preserving a collection against itself changes nothing. |
| Pipeline.EnrichCollection | packages/core/src/index.ts:24-61 | The run fails exactly when the variables stage fails; otherwise the result is the tests stage applied after filter, descriptions, examples and variables, in that order. |
| Pipeline.EmptyConfigIsIdentity | packages/core/src/index.ts:32-60 | A configuration with no section returns the collection unchanged. |
| Pipeline.IgnoresOrganizeAndPathVariables | packages/core/src/index.ts:36-58 | The organize and path-variables sections have no effect on the result. |
| Pipeline.AbsentStagesAreSkipped | packages/core/src/index.ts:36-58 | Each absent section leaves its stage out. |
| Pipeline.VariablesCleared | packages/core/src/index.ts:51-53 | A successful run with a variables section ends with no collection variables. |
| Pipeline.FilterFirst | packages/core/src/index.ts:36-58 | With an allow-list, and no request carrying children, every request the later stages see and every request of the result is admitted by the allow-list. |
| Records.AssignLookup | packages/core/src/enrichers/preserveIds.ts:53 | After `map.set(k, v)` reading `k` gives `v` and every other key reads as before. |
| Records.AssignAllLookup | packages/core/src/enrichers/preserveIds.ts:50-55 | After a sequence of assignments every assigned key holds its last value, and other keys read as before. |
| Strings.StripWord | packages/core/src/enrichers/descriptions.ts:101 | `replace(/^word\s+/, '')` changes the text exactly when it starts with the word followed by white space, and then drops the word and the whole white-space run. |

## Left out

- Reading files, YAML configuration (`loadConfigFromYaml`, packages/core/src/index.ts:68-77), the command-line program and the type declarations' runtime checks are not modelled. A configuration is an already-parsed value.
- `preserveIds` reads and parses a file. That becomes an `Option<Collection>` argument, where `None` covers a missing path, a missing file and a parse failure alike.
- `JSON.parse` and `JSON.stringify(v, null, 2)` are uninterpreted fields of `Json.Codec`. Number formatting, key order inside stringified output and parse errors are not modelled.
- `toLowerCase` and the regular-expression class `\s` are modelled on ASCII only. Unicode case mapping and Unicode white space are left out.
- JavaScript object keys are modelled as an entry sequence, and lookups read the first entry. Inherited prototype properties such as `constructor` are not modelled. Integer-like keys, which JavaScript iterates first, are not reordered either.
- Variables.PathVariablesEffect and Variables.QueryParamsEffect assume configured entries with distinct keys (`Records.UniqueKeys`), as every JavaScript object has.
- Pipeline.FilterFirst and Filter.FilterAdmitsOnlyIncluded assume no request carries its own `item` array. The filter does not look below a request, while the walker visits such children.
- Aliasing is not modelled. The stages mutate the caller's collection in place, and `enrichCollection` makes only a shallow copy. The model returns new values, and stages compose as if each received its own copy.
- The `auth`, `protocol`, `port` and other URL and request fields that no stage reads are not modelled. Only the fields the stages read or write are present.
- Test and environment scripts are kept as text lines. What they do when Postman runs them is not modelled.
- The first `replace(/:(\w+)/g, ':$1')` of `normalizePath` (packages/shared/src/matcher.ts:16) rewrites every match to itself, so Matcher.NormalizePath omits it.
- `walkCollection` receives an `item` array even when an item is also a request. Walker.MapTree rewrites such children too, but a handler's own writes to `item` are not modelled. No handler writes `item`.
- Organize.Truncate takes the nesting level as an integer. A fractional or `NaN` level is not modelled.
- Descriptions.CollectionInfo treats the collection name as a string. A missing `info.name`, which would throw, is not modelled.


=== FILE: descriptions.dfy ===
/** The descriptions stage: collection name and description by a substring
    match on the collection name, folder descriptions by lower-case name,
    request descriptions by exact name or a generated sentence. */
module Descriptions {
  import opened Wrappers
  import opened Strings
  import opened Records
  import opened Types
  import opened Walker

  // Collection level.

  /** Index of the first configured collection key whose lower-case form
      occurs in the lower-case collection name, or -1 when none does. */
  function FirstNameMatch(entries: Record<CollectionText>, name: string): (r: int)
    ensures -1 <= r < |entries|
    ensures r == -1 <==> forall j :: 0 <= j < |entries| ==> !Contains(Lower(name), Lower(entries[j].0))
    ensures r >= 0 ==> Contains(Lower(name), Lower(entries[r].0))
    ensures r >= 0 ==> forall j :: 0 <= j < r ==> !Contains(Lower(name), Lower(entries[j].0))
  {
    if entries == [] then -1
    else if Contains(Lower(name), Lower(entries[0].0)) then 0
    else
      var r := FirstNameMatch(entries[1..], name);
      if r == -1 then -1 else r + 1
  }

  /** Step 1: the collection's `info` after the key match. The empty key
      occurs in every name but is falsy, so it changes nothing. */
  function CollectionInfo(info: Info, entries: Record<CollectionText>): (r: Info)
    ensures r.schema == info.schema && r.postmanId == info.postmanId
    ensures var i := FirstNameMatch(entries, info.name);
      i == -1 || entries[i].0 == "" ==> r == info
    ensures var i := FirstNameMatch(entries, info.name);
      i >= 0 && entries[i].0 != "" ==>
        var text := entries[i].1;
        && r.name == (if NonEmpty(text.name) then text.name.value else info.name)
        && r.description == (if NonEmpty(text.description) then Some(Rich(text.description.value, "text/markdown")) else info.description)
  {
    var i := FirstNameMatch(entries, info.name);
    if i == -1 || entries[i].0 == "" then info
    else
      var text := entries[i].1;
      info.(name := if NonEmpty(text.name) then text.name.value else info.name,
            description := if NonEmpty(text.description) then Some(Rich(text.description.value, "text/markdown")) else info.description)
  }

  /** The chosen entry is the one `config.collection[key]` reads: with
      duplicate keys the first entry still wins. */
  lemma CollectionKeyLookup(info: Info, entries: Record<CollectionText>)
    requires FirstNameMatch(entries, info.name) >= 0
    ensures var i := FirstNameMatch(entries, info.name);
      Lookup(entries, entries[i].0) == Some(entries[i].1)
  {
    var i := FirstNameMatch(entries, info.name);
    assert forall j :: 0 <= j < i ==> entries[j].0 != entries[i].0;
    LookupIsFirst(entries, entries[i].0, i);
  }

  // Folder level.

  /** The lower-case name with `{`, `}` and `:` removed. */
  function CleanKey(name: string): (r: string)
    ensures |r| <= |name|
    ensures forall i :: 0 <= i < |r| ==> r[i] !in {'{', '}', ':'}
    ensures (forall i :: 0 <= i < |name| ==> name[i] !in {'{', '}', ':'}) ==> r == Lower(name)
  {
    RemoveChars(Lower(name), {'{', '}', ':'})
  }

  /** Cleaning keeps every other character, lower-cased and in order:
      cleaning a concatenation cleans each part. */
  lemma CleanKeyAppend(a: string, b: string)
    ensures CleanKey(a + b) == CleanKey(a) + CleanKey(b)
  {
    LowerAppend(a, b);
    RemoveCharsAppend(Lower(a), Lower(b), {'{', '}', ':'});
  }

  /** The text a folder of this name receives, if any: the entry for its
      lower-case name, or failing that for its cleaned name. */
  function FolderText(name: string, folders: Record<string>): (r: Option<string>)
    ensures r.Some? ==> r.value != ""
    ensures r.Some? ==> (Lower(name), r.value) in folders || (CleanKey(name), r.value) in folders
    ensures NonEmpty(Lookup(folders, Lower(name))) ==> r == Lookup(folders, Lower(name))
    ensures r.None? <==>
      !NonEmpty(Lookup(folders, Lower(name))) && (CleanKey(name) == "" || !NonEmpty(Lookup(folders, CleanKey(name))))
  {
    var exact := Lookup(folders, Lower(name));
    if NonEmpty(exact) then exact
    else
      var clean := CleanKey(name);
      if clean != "" && NonEmpty(Lookup(folders, clean)) then Lookup(folders, clean) else None
  }

  /** The folder handler: a folder with a text gets it as a plain string
      description; every other item is left as it is. */
  function FolderHandler(folders: Record<string>, it: Item): (r: Item)
    ensures IsFolder(it) && FolderText(it.name, folders).Some? ==>
      r == it.(description := Some(Plain(FolderText(it.name, folders).value)))
    ensures !IsFolder(it) || FolderText(it.name, folders).None? ==> r == it
  {
    if IsFolder(it) then
      match FolderText(it.name, folders)
      case Some(text) => it.(description := Some(Plain(text)))
      case None => it
    else it
  }

  function FolderStep(items: seq<Item>, folders: Record<string>): seq<Item> {
    MapTree(items, it => FolderHandler(folders, it))
  }

  /** Step 2, position by position over the walk: matched folders gain
      their text, and every other visited item, requests included, is
      unchanged. */
  lemma FolderStepEffect(items: seq<Item>, folders: Record<string>)
    ensures |Walk(FolderStep(items, folders))| == |Walk(items)|
    ensures forall i :: 0 <= i < |Walk(items)| ==>
      var x, y := Walk(items)[i], Walk(FolderStep(items, folders))[i];
      && (IsFolder(x) && FolderText(x.name, folders).Some? ==>
            Strip(y) == Strip(x).(description := Some(Plain(FolderText(x.name, folders).value))))
      && (!IsFolder(x) || FolderText(x.name, folders).None? ==> Strip(y) == Strip(x))
  {
    MapTreeVisits(items, it => FolderHandler(folders, it));
  }

  // Request level.

  /** The generated sentence's opening words for the five listed methods. */
  function Lead(verb: string): (r: Option<string>)
    ensures r.Some? <==> verb in {"GET", "POST", "PUT", "PATCH", "DELETE"}
  {
    if verb == "GET" then Some("Retrieve ")
    else if verb == "POST" then Some("Create new ")
    else if verb == "PUT" then Some("Update ")
    else if verb == "PATCH" then Some("Partially update ")
    else if verb == "DELETE" then Some("Delete ")
    else None
  }

  /** The lower-case name with the method's leading words removed (each
      only when white space follows it). */
  function Subject(verb: string, lname: string): (r: string)
    ensures EndsWith(lname, r)
    ensures verb == "GET" ==> r == StripWord(StripWord(lname, "get"), "list")
    ensures verb == "POST" ==> r == StripWord(StripWord(lname, "create"), "add")
    ensures verb == "PUT" || verb == "PATCH" ==> r == StripWord(lname, "update")
    ensures verb == "DELETE" ==> r == StripWord(StripWord(lname, "delete"), "remove")
    ensures verb !in {"GET", "POST", "PUT", "PATCH", "DELETE"} ==> r == lname
  {
    if verb == "GET" then StripTwo(lname, "get", "list")
    else if verb == "POST" then StripTwo(lname, "create", "add")
    else if verb == "PUT" || verb == "PATCH" then StripWord(lname, "update")
    else if verb == "DELETE" then StripTwo(lname, "delete", "remove")
    else assert lname[|lname| - |lname|..] == lname; lname
  }

  /** Two strips in a row, the second applied to what the first leaves. */
  function StripTwo(s: string, first: string, second: string): (r: string)
    ensures EndsWith(s, r)
  {
    var t := StripWord(s, first);
    var r := StripWord(t, second);
    EndsWithTrans(s, t, r);
    r
  }

  /** `generateGenericDescription`: a non-empty sentence that, for a
      listed method, is the method's lead followed by an ending of the
      lower-case name. */
  function GenericDescription(verb: string, name: string): (r: string)
    ensures r != ""
    ensures Lead(verb).Some? ==>
      StartsWith(r, Lead(verb).value) && EndsWith(Lower(name), r[|Lead(verb).value|..])
    ensures Lead(verb).Some? ==> r == Lead(verb).value + Subject(verb, Lower(name))
    ensures Lead(verb).None? ==> r == "Perform " + verb + " operation on " + Lower(name)
  {
    match Lead(verb)
    case Some(lead) =>
      var r := lead + Subject(verb, Lower(name));
      assert r[|lead|..] == Subject(verb, Lower(name));
      r
    case None => "Perform " + verb + " operation on " + Lower(name)
  }

  /** The strips apply in order: "get" then "list" for GET. */
  lemma GenericGetExample(name: string)
    requires name == "Get List Users"
    ensures GenericDescription("GET", name) == "Retrieve users"
  {
    LowerStripExample(name);
    var l := Lower(name);
    assert Subject("GET", l) == "users";
    GetSentence(Subject("GET", l));
  }

  /** The GET sentence for the subject "users": its lead, then the subject. */
  lemma GetSentence(subject: string)
    requires subject == "users"
    ensures Lead("GET").value + subject == "Retrieve users"
  {
  }

  /** A word with no white space after it is kept. */
  lemma GenericDeleteExample(name: string)
    requires name == "Remove"
    ensures GenericDescription("DELETE", name) == "Delete remove"
  {
    var l := Lower(name);
    assert l == "remove";
    assert StripWord(l, "delete") == "remove";
    assert StripWord("remove", "remove") == "remove";
  }

  /** Method names are matched case-sensitively. */
  lemma GenericUnlistedExample(name: string)
    requires name == "Users"
    ensures GenericDescription("get", name) == "Perform get operation on users"
  {
    assert Lower(name) == "users";
  }

  /** The description a request receives: the configured text for its exact
      name when non-empty, else the generated sentence. */
  function RequestText(requests: Record<string>, it: Item): (r: string)
    ensures r != ""
    ensures NonEmpty(Lookup(requests, it.name)) ==> r == Lookup(requests, it.name).value
    ensures !NonEmpty(Lookup(requests, it.name)) ==> r == GenericDescription(GetRequestMethod(it), it.name)
  {
    var configured := Lookup(requests, it.name);
    if NonEmpty(configured) then configured.value else GenericDescription(GetRequestMethod(it), it.name)
  }

  function RequestHandler(requests: Record<string>, it: Item): (r: Item)
    ensures IsRequest(it) ==> IsRequest(r) && r.request.value.description == Some(Plain(RequestText(requests, it)))
    ensures IsRequest(it) ==> r.request.value.(description := None) == it.request.value.(description := None)
    ensures IsRequest(it) ==> r.(request := None) == it.(request := None)
    ensures !IsRequest(it) ==> r == it
  {
    if IsRequest(it) then it.(request := Some(it.request.value.(description := Some(Plain(RequestText(requests, it))))))
    else it
  }

  function RequestStep(items: seq<Item>, requests: Record<string>): seq<Item> {
    MapTree(items, it => RequestHandler(requests, it))
  }

  /** Step 3, position by position over the walk: every request gets a
      non-empty plain description and nothing else changes. */
  lemma RequestStepEffect(items: seq<Item>, requests: Record<string>)
    ensures |Walk(RequestStep(items, requests))| == |Walk(items)|
    ensures forall i :: 0 <= i < |Walk(items)| ==>
      var x, y := Walk(items)[i], Walk(RequestStep(items, requests))[i];
      && (IsRequest(x) ==> IsRequest(y) && y.request.value.description == Some(Plain(RequestText(requests, x))))
      && (IsRequest(x) ==> y.request.value.(description := None) == x.request.value.(description := None))
      && (IsRequest(x) ==> Strip(y).(request := x.request) == Strip(x))
      && (!IsRequest(x) ==> Strip(y) == Strip(x))
  {
    var f := it => RequestHandler(requests, it);
    MapTreeVisits(items, f);
    forall i | 0 <= i < |Walk(items)|
      ensures Strip(Walk(RequestStep(items, requests))[i]) == Strip(RequestHandler(requests, Walk(items)[i]))
    {
      assert Strip(Walk(RequestStep(items, requests))[i]) == Strip(f(Walk(items)[i]));
    }
  }

  /** `addDescriptions`. */
  function AddDescriptions(c: Collection, config: Option<DescriptionConfig>): (r: Collection)
    ensures config.None? ==> r == c
    ensures r.variable == c.variable && r.event == c.event
    ensures config.Some? ==> r.info == (match config.value.collection
                                        case None => c.info
                                        case Some(entries) => CollectionInfo(c.info, entries))
    ensures config.Some? ==>
      var afterFolders := match config.value.folders
                          case None => c.item
                          case Some(folders) => FolderStep(c.item, folders);
      r.item == match config.value.requests
                case None => afterFolders
                case Some(requests) => RequestStep(afterFolders, requests)
  {
    match config
    case None => c
    case Some(cfg) =>
      var info := match cfg.collection case None => c.info case Some(entries) => CollectionInfo(c.info, entries);
      var items := match cfg.folders case None => c.item case Some(folders) => FolderStep(c.item, folders);
      var items := match cfg.requests case None => items case Some(requests) => RequestStep(items, requests);
      c.(info := info, item := items)
  }

  /** The stage changes no method or URL, so no request's endpoint. */
  lemma DescriptionsKeepEndpoints(c: Collection, config: Option<DescriptionConfig>)
    ensures SameEndpoints(c.item, AddDescriptions(c, config).item)
  {
    if config.Some? {
      var items := c.item;
      if config.value.folders.Some? {
        var folders := config.value.folders.value;
        MapTreeKeepsEndpoints(c.item, it => FolderHandler(folders, it));
        items := FolderStep(c.item, folders);
      }
      if config.value.requests.Some? {
        var requests := config.value.requests.value;
        MapTreeKeepsEndpoints(items, it => RequestHandler(requests, it));
        SameEndpointsTrans(c.item, items, RequestStep(items, requests));
      }
    }
  }
}

=== FILE: examples.dfy ===
/** The examples stage: merges configured example bodies into JSON request
    bodies and gives every request a response example. */
module Examples {
  import opened Wrappers
  import opened Records
  import opened Json
  import opened Types
  import opened Walker

  /** `getDefaultStatus`'s table, in declaration order. */
  const StatusTable: Record<string> :=
    [("GET", "OK"), ("POST", "Created"), ("PUT", "OK"), ("PATCH", "OK"), ("DELETE", "No Content")]

  /** `getDefaultStatusCode`'s table, in declaration order. */
  const CodeTable: Record<int> :=
    [("GET", 200), ("POST", 201), ("PUT", 200), ("PATCH", 200), ("DELETE", 204)]

  /** The table entry for the method, or "OK" when it has none. */
  function DefaultStatus(verb: string): (r: string)
    ensures verb == "DELETE" ==> r == "No Content"
    ensures verb == "POST" ==> r == "Created"
    ensures verb != "DELETE" && verb != "POST" ==> r == "OK"
  {
    var entry := Lookup(StatusTable, verb);
    if NonEmpty(entry) then entry.value else "OK"
  }

  /** The table entry for the method, or 200 when it has none. */
  function DefaultStatusCode(verb: string): (r: int)
    ensures verb == "DELETE" ==> r == 204
    ensures verb == "POST" ==> r == 201
    ensures verb != "DELETE" && verb != "POST" ==> r == 200
  {
    var entry := Lookup(CodeTable, verb);
    if entry.Some? && entry.value != 0 then entry.value else 200
  }

  const JsonHeader := Header("Content-Type", "application/json")

  const SampleId := "123e4567-e89b-12d3-a456-426614174000"

  /** The sample body of a POST example. */
  const CreatedBody: Json :=
    JObj([("id", JStr(SampleId)), ("message", JStr("Resource created successfully"))])

  /** The sample body of every other non-DELETE example. */
  const ResourceBody: Json :=
    JObj([("id", JStr(SampleId)), ("name", JStr("Example Resource")),
          ("createdAt", JStr("2024-01-01T00:00:00Z")), ("updatedAt", JStr("2024-01-01T00:00:00Z"))])

  /** `getDefaultResponseExample`: the DELETE example is bodiless, the
      others are JSON; every example's status line agrees with the two
      tables. */
  function DefaultResponseExample(verb: string, codec: Codec): (r: Response)
    ensures r.status == DefaultStatus(verb) && r.code == DefaultStatusCode(verb)
    ensures verb == "DELETE" ==>
      r == Response(None, "No Content", "No Content", 204, Some([]), Some(""), None)
    ensures verb != "DELETE" ==> r.header == Some([JsonHeader]) && r.previewLanguage == Some("json") && r.id.None?
    ensures verb == "POST" ==> r.name == "Created" && r.body == Some(codec.pretty(CreatedBody))
    ensures verb != "DELETE" && verb != "POST" ==> r.name == "Success" && r.body == Some(codec.pretty(ResourceBody))
  {
    if verb == "DELETE" then
      Response(None, "No Content", "No Content", 204, Some([]), Some(""), None)
    else if verb == "POST" then
      Response(None, "Created", "Created", 201, Some([JsonHeader]), Some(codec.pretty(CreatedBody)), Some("json"))
    else
      Response(None, "Success", "OK", 200, Some([JsonHeader]), Some(codec.pretty(ResourceBody)), Some("json"))
  }

  /** The single response built from a configured example: its own name,
      status and code where they are truthy, the defaults otherwise. */
  function ConfiguredResponse(ex: ExampleResponse, verb: string, codec: Codec): (r: Response)
    ensures r.name != "" && r.status != "" && r.code != 0
    ensures r.name == (if ex.name != "" then ex.name else "Success")
    ensures r.status == (if ex.status != "" then ex.status else DefaultStatus(verb))
    ensures r.code == (if ex.code != 0 then ex.code else DefaultStatusCode(verb))
    ensures r.header == Some([JsonHeader]) && r.previewLanguage == Some("json") && r.id.None?
    ensures r.body.Some? <==> ex.body.Some?
    ensures ex.body.Some? ==> r.body.value == codec.pretty(ex.body.value)
  {
    Response(
      None,
      if ex.name != "" then ex.name else "Success",
      if ex.status != "" then ex.status else DefaultStatus(verb),
      if ex.code != 0 then ex.code else DefaultStatusCode(verb),
      Some([JsonHeader]),
      match ex.body case None => None case Some(j) => Some(codec.pretty(j)),
      Some("json"))
  }

  /** The request body's `raw` after the merge: only a non-empty raw body
      with a truthy override is touched, and only when it parses; the
      override's keys then win over the parsed keys. */
  function MergedRaw(raw: Option<string>, over: Option<Json>, codec: Codec): (r: Option<string>)
    ensures !NonEmpty(raw) || over.None? || !Truthy(over.value) ==> r == raw
    ensures NonEmpty(raw) && over.Some? && Truthy(over.value) && codec.parse(raw.value).None? ==> r == raw
    ensures NonEmpty(raw) && over.Some? && Truthy(over.value) && codec.parse(raw.value).Some? ==>
      r == Some(codec.pretty(Merge(codec.parse(raw.value).value, over.value)))
  {
    if NonEmpty(raw) && over.Some? && Truthy(over.value) then
      match codec.parse(raw.value)
      case None => raw
      case Some(parsed) => Some(codec.pretty(Merge(parsed, over.value)))
    else raw
  }

  /** The configured body override for a request name, if any. */
  function BodyOverride(config: ExampleConfig, name: string): Option<Json> {
    match config.requests
    case None => None
    case Some(requests) =>
      match Lookup(requests, name)
      case None => None
      case Some(example) => example.body
  }

  function ConfiguredFor(config: ExampleConfig, name: string): Option<ExampleResponse> {
    match config.responses
    case None => None
    case Some(responses) => Lookup(responses, name)
  }

  /** The handler for one item. */
  function ExampleHandler(config: ExampleConfig, codec: Codec, it: Item): (r: Item)
    ensures !IsRequest(it) ==> r == it
    ensures IsRequest(it) ==> r.response.Some? && |r.response.value| > 0
    ensures IsRequest(it) ==> r.(request := None, response := None) == it.(request := None, response := None)
    ensures IsRequest(it) ==> IsRequest(r) && r.request.value.(body := None) == it.request.value.(body := None)
    ensures IsRequest(it) ==> (r.request.value.body.Some? <==> it.request.value.body.Some?)
    ensures IsRequest(it) && it.request.value.body.Some? ==>
      r.request.value.body.value.mode == it.request.value.body.value.mode
      && r.request.value.body.value.raw == MergedRaw(it.request.value.body.value.raw, BodyOverride(config, it.name), codec)
    ensures IsRequest(it) && ConfiguredFor(config, it.name).Some? ==>
      r.response == Some([ConfiguredResponse(ConfiguredFor(config, it.name).value, GetRequestMethod(it), codec)])
    ensures IsRequest(it) && ConfiguredFor(config, it.name).None? && it.response.Some? && |it.response.value| > 0 ==>
      r.response == it.response
    ensures IsRequest(it) && ConfiguredFor(config, it.name).None? && (it.response.None? || |it.response.value| == 0) ==>
      r.response == Some([DefaultResponseExample(GetRequestMethod(it), codec)])
  {
    if !IsRequest(it) then it
    else
      var req := it.request.value;
      var verb := GetRequestMethod(it);
      var body := match req.body
        case None => None
        case Some(b) => Some(b.(raw := MergedRaw(b.raw, BodyOverride(config, it.name), codec)));
      var response := match ConfiguredFor(config, it.name)
        case Some(ex) => Some([ConfiguredResponse(ex, verb, codec)])
        case None =>
          if it.response.None? || |it.response.value| == 0 then Some([DefaultResponseExample(verb, codec)])
          else it.response;
      it.(request := Some(req.(body := body)), response := response)
  }

  /** `addExamples`. */
  function AddExamples(c: Collection, config: Option<ExampleConfig>, codec: Codec): (r: Collection)
    ensures config.None? ==> r == c
    ensures r.info == c.info && r.variable == c.variable && r.event == c.event
    ensures config.Some? ==> r.item == MapTree(c.item, it => ExampleHandler(config.value, codec, it))
  {
    match config
    case None => c
    case Some(cfg) => c.(item := MapTree(c.item, it => ExampleHandler(cfg, codec, it)))
  }

  /** Position by position over the walk: folders and every other
      non-request are left alone, and each request gains a non-empty
      response list with its method, URL and name unchanged. */
  lemma ExamplesEffect(c: Collection, config: ExampleConfig, codec: Codec)
    ensures var w, w' := Walk(c.item), Walk(AddExamples(c, Some(config), codec).item);
      && |w'| == |w|
      && (forall i :: 0 <= i < |w| && !IsRequest(w[i]) ==> Strip(w'[i]) == Strip(w[i]))
      && (forall i :: 0 <= i < |w| && IsRequest(w[i]) ==>
            && Strip(w'[i]) == Strip(ExampleHandler(config, codec, w[i]))
            && w'[i].response.Some? && |w'[i].response.value| > 0)
  {
    var f := it => ExampleHandler(config, codec, it);
    MapTreeVisits(c.item, f);
    var w, w' := Walk(c.item), Walk(AddExamples(c, Some(config), codec).item);
    forall i | 0 <= i < |w| && IsRequest(w[i])
      ensures w'[i].response.Some? && |w'[i].response.value| > 0
    {
      assert Strip(w'[i]) == Strip(f(w[i]));
    }
  }

  lemma ExamplesKeepEndpoints(c: Collection, config: Option<ExampleConfig>, codec: Codec)
    ensures SameEndpoints(c.item, AddExamples(c, config, codec).item)
  {
    if config.Some? {
      var f := it => ExampleHandler(config.value, codec, it);
      forall x ensures Endpoint(f(x)) == Endpoint(x) {
      }
      MapTreeKeepsEndpoints(c.item, f);
    } else {
      assert forall i :: 0 <= i < |Walk(c.item)| ==> Endpoint(Walk(c.item)[i]) == Endpoint(Walk(c.item)[i]);
    }
  }
}

=== FILE: filter.dfy ===
/** The filter stage: keeps only the requests the allow-list names, and
    drops the folders left empty. */
module Filter {
  import opened Wrappers
  import opened Records
  import opened Types
  import opened Walker
  import opened Matcher
  import opened Organize

  /** The allow-list verdict on one request. */
  predicate Included(it: Item, allow: Record<bool>, rules: Record<string>)
    requires IsRequest(it)
  {
    ShouldIncludeEndpoint(GetRequestMethod(it), GetUrlPath(it.request.value.url), allow, rules)
  }

  /** The inner `filterItems` of `filterEndpoints`. */
  function FilterItems(items: seq<Item>, allow: Record<bool>, rules: Record<string>): (r: seq<Item>)
    ensures |r| <= |items|
    decreases items
  {
    if items == [] then [] else FilterOne(items[0], allow, rules) + FilterItems(items[1..], allow, rules)
  }

  /** What one item becomes: a request stays or goes by its verdict, a
      folder stays with its surviving children or goes when none survive,
      and anything else stays as it is. */
  function FilterOne(it: Item, allow: Record<bool>, rules: Record<string>): (r: seq<Item>)
    ensures |r| <= 1
    ensures r != [] ==> Strip(r[0]) == Strip(it)
    ensures IsRequest(it) ==> (r == [it] <==> Included(it, allow, rules)) && (r == [] <==> !Included(it, allow, rules))
    ensures !IsRequest(it) && it.children.NoItems? ==> r == [it]
    decreases it
  {
    if IsRequest(it) then (if Included(it, allow, rules) then [it] else [])
    else match it.children
      case NoItems => [it]
      case Items(cs) =>
        var sub := FilterItems(cs, allow, rules);
        if |sub| > 0 then [it.(children := Items(sub))] else []
  }

  /** Sibling order is kept: filtering a concatenation filters each part. */
  lemma {:induction false} FilterAppend(a: seq<Item>, b: seq<Item>, allow: Record<bool>, rules: Record<string>)
    ensures FilterItems(a + b, allow, rules) == FilterItems(a, allow, rules) + FilterItems(b, allow, rules)
    decreases a
  {
    if a == [] {
      assert a + b == b;
    } else {
      assert (a + b)[0] == a[0] && (a + b)[1..] == a[1..] + b;
      FilterAppend(a[1..], b, allow, rules);
    }
  }

  /** The requests of a list that the allow-list admits, in order. */
  function IncludedOnly(reqs: seq<Item>, allow: Record<bool>, rules: Record<string>): (r: seq<Item>)
    requires forall x :: x in reqs ==> IsRequest(x)
    ensures forall x :: x in r <==> x in reqs && Included(x, allow, rules)
    ensures |r| <= |reqs|
  {
    if reqs == [] then []
    else (if Included(reqs[0], allow, rules) then [reqs[0]] else []) + IncludedOnly(reqs[1..], allow, rules)
  }

  lemma {:induction false} FlattenAppend(a: seq<Item>, b: seq<Item>)
    ensures FlattenRequests(a + b) == FlattenRequests(a) + FlattenRequests(b)
    decreases a
  {
    if a == [] {
      assert a + b == b;
    } else {
      assert (a + b)[0] == a[0] && (a + b)[1..] == a[1..] + b;
      FlattenAppend(a[1..], b);
    }
  }

  /** A request survives iff the allow-list admits it, and survivors keep
      their order: the requests of the filtered tree are exactly the
      admitted requests of the original tree. */
  lemma {:induction false} FilterKeepsExactlyIncluded(items: seq<Item>, allow: Record<bool>, rules: Record<string>)
    ensures FlattenRequests(FilterItems(items, allow, rules)) == IncludedOnly(FlattenRequests(items), allow, rules)
    decreases items
  {
    if items != [] {
      var it := items[0];
      var rest := items[1..];
      FilterAppend([it], rest, allow, rules);
      FlattenAppend(FilterOne(it, allow, rules), FilterItems(rest, allow, rules));
      FilterKeepsExactlyIncluded(rest, allow, rules);
      IncludedAppend(if IsRequest(it) then [it] else FlattenBelow(it), FlattenRequests(rest), allow, rules);
      assert FlattenRequests([it]) == (if IsRequest(it) then [it] else FlattenBelow(it)) + FlattenRequests([]);
      if !IsRequest(it) && it.children.Items? {
        var cs := it.children.items;
        FilterKeepsExactlyIncluded(cs, allow, rules);
        var sub := FilterItems(cs, allow, rules);
        if |sub| > 0 {
          var it' := it.(children := Items(sub));
          assert FlattenRequests([it']) == FlattenBelow(it') + FlattenRequests([]);
        }
      }
    }
  }

  lemma {:induction false} IncludedAppend(a: seq<Item>, b: seq<Item>, allow: Record<bool>, rules: Record<string>)
    requires forall x :: x in a ==> IsRequest(x)
    requires forall x :: x in b ==> IsRequest(x)
    ensures IncludedOnly(a + b, allow, rules) == IncludedOnly(a, allow, rules) + IncludedOnly(b, allow, rules)
  {
    if a == [] {
      assert a + b == b;
    } else {
      var h := if Included(a[0], allow, rules) then [a[0]] else [];
      assert (a + b)[0] == a[0] && (a + b)[1..] == a[1..] + b;
      assert IncludedOnly(a + b, allow, rules) == h + IncludedOnly(a[1..] + b, allow, rules);
      assert IncludedOnly(a, allow, rules) == h + IncludedOnly(a[1..], allow, rules);
      assert forall x :: x in a[1..] ==> x in a;
      IncludedAppend(a[1..], b, allow, rules);
      AppendAssoc(h, IncludedOnly(a[1..], allow, rules), IncludedOnly(b, allow, rules));
    }
  }

  lemma AppendAssoc<T>(x: seq<T>, y: seq<T>, z: seq<T>)
    ensures x + (y + z) == (x + y) + z
  {
  }

  /** Every folder of the tree (entering folders only) has children. */
  predicate FoldersNonEmpty(items: seq<Item>)
    decreases items
  {
    forall i :: 0 <= i < |items| && IsFolder(items[i]) ==>
      |items[i].children.items| > 0 && FoldersNonEmpty(items[i].children.items)
  }

  /** No folder the filter keeps is empty. */
  lemma {:induction false} FilterPrunesEmptyFolders(items: seq<Item>, allow: Record<bool>, rules: Record<string>)
    ensures FoldersNonEmpty(FilterItems(items, allow, rules))
    decreases items
  {
    if items != [] {
      var it := items[0];
      var head := FilterOne(it, allow, rules);
      var tail := FilterItems(items[1..], allow, rules);
      FilterPrunesEmptyFolders(items[1..], allow, rules);
      if !IsRequest(it) && it.children.Items? {
        FilterPrunesEmptyFolders(it.children.items, allow, rules);
      }
      var r := head + tail;
      forall i | 0 <= i < |r| && IsFolder(r[i])
        ensures |r[i].children.items| > 0 && FoldersNonEmpty(r[i].children.items)
      {
        if i >= |head| {
          assert r[i] == tail[i - |head|];
        }
      }
    }
  }

  /** Filtering twice with the same allow-list is filtering once. */
  lemma {:induction false} FilterIdempotent(items: seq<Item>, allow: Record<bool>, rules: Record<string>)
    ensures FilterItems(FilterItems(items, allow, rules), allow, rules) == FilterItems(items, allow, rules)
    decreases items
  {
    if items != [] {
      var it := items[0];
      var head := FilterOne(it, allow, rules);
      var tail := FilterItems(items[1..], allow, rules);
      FilterAppend(head, tail, allow, rules);
      FilterIdempotent(items[1..], allow, rules);
      if head != [] {
        assert FilterItems(head, allow, rules) == FilterOne(head[0], allow, rules) + FilterItems([], allow, rules);
        if !IsRequest(it) && it.children.Items? {
          FilterIdempotent(it.children.items, allow, rules);
        }
      }
    }
  }

  /** Every request the walker reaches in the filtered tree is admitted,
      provided no request of the input carries children of its own (a
      request is kept whole, children included). */
  lemma {:induction false} FilterAdmitsOnlyIncluded(items: seq<Item>, allow: Record<bool>, rules: Record<string>)
    requires NoNestedRequests(items)
    ensures forall x :: x in Walk(FilterItems(items, allow, rules)) && IsRequest(x) ==> Included(x, allow, rules)
    decreases items
  {
    if items != [] {
      var it := items[0];
      var head := FilterOne(it, allow, rules);
      var tail := FilterItems(items[1..], allow, rules);
      NoNestedRequestsParts(items);
      WalkAppend(head, tail);
      FilterAdmitsOnlyIncluded(items[1..], allow, rules);
      if head != [] {
        assert Walk(head) == [head[0]] + WalkChildren(head[0]) + Walk([]);
        if !IsRequest(it) && it.children.Items? {
          FilterAdmitsOnlyIncluded(it.children.items, allow, rules);
        }
      }
    }
  }

  /** The text JavaScript's `(description || '') + ...` produces: a
      `{content, type}` object becomes "[object Object]". */
  function DescriptionText(d: Option<Description>): string {
    match d
    case None => ""
    case Some(Plain(s)) => s
    case Some(Rich(_, _)) => "[object Object]"
  }

  /** `filterEndpoints`. */
  function FilterEndpoints(c: Collection, config: FilterConfig): (r: Collection)
    ensures config.allow.None? ==> r == c
    ensures config.allow.Some? ==> r.item == FilterItems(c.item, config.allow.value, config.normalizationRules.GetOr([]))
    ensures r.variable == c.variable && r.event == c.event
    ensures r.info.(description := None) == c.info.(description := None)
    ensures config.allow.Some? && NonEmpty(config.note) ==>
      r.info.description == Some(Plain(DescriptionText(c.info.description) + "\n\n" + config.note.value))
    ensures !NonEmpty(config.note) ==> r.info.description == c.info.description
  {
    match config.allow
    case None => c
    case Some(allow) =>
      var filtered := c.(item := FilterItems(c.item, allow, config.normalizationRules.GetOr([])));
      if NonEmpty(config.note) then
        filtered.(info := filtered.info.(description := Some(Plain(DescriptionText(c.info.description) + "\n\n" + config.note.value))))
      else filtered
  }

  /** The command line's `countRequests`: a request counts one, a folder
      counts its children; a request's own children are not entered. */
  function CountRequests(items: seq<Item>): nat
    decreases items
  {
    if items == [] then 0
    else (if IsRequest(items[0]) then 1 else CountBelow(items[0])) + CountRequests(items[1..])
  }

  function CountBelow(it: Item): nat
    decreases it
  {
    match it.children
    case NoItems => 0
    case Items(cs) => CountRequests(cs)
  }

  /** The count is the number of requests the organize stage collects. */
  lemma {:induction false} CountIsFlattenLength(items: seq<Item>)
    ensures CountRequests(items) == |FlattenRequests(items)|
    decreases items
  {
    if items != [] {
      CountIsFlattenLength(items[1..]);
      if !IsRequest(items[0]) && items[0].children.Items? {
        CountIsFlattenLength(items[0].children.items);
      }
    }
  }

  /** Filtering counts exactly the admitted requests, so never more than
      before. */
  lemma FilterCount(items: seq<Item>, allow: Record<bool>, rules: Record<string>)
    ensures CountRequests(FilterItems(items, allow, rules)) == |IncludedOnly(FlattenRequests(items), allow, rules)|
    ensures CountRequests(FilterItems(items, allow, rules)) <= CountRequests(items)
  {
    CountIsFlattenLength(items);
    CountIsFlattenLength(FilterItems(items, allow, rules));
    FilterKeepsExactlyIncluded(items, allow, rules);
  }
}

=== FILE: json.dfy ===
/** The JSON values that request bodies and configured examples carry, and
    the object spread `{ ...a, ...b }` the examples stage merges them with.
    Parsing and pretty-printing are not modelled: they are the two
    uninterpreted functions of a `Codec`. */
module Json {
  import opened Wrappers
  import opened Records

  datatype Json =
    | JNull
    | JBool(b: bool)
    | JNum(n: int)
    | JStr(s: string)
    | JArr(items: seq<Json>)
    | JObj(fields: Record<Json>)

  /** `JSON.parse` (None when it throws) and `JSON.stringify(v, null, 2)`. */
  datatype Codec = Codec(parse: string -> Option<Json>, pretty: Json -> string)

  /** JavaScript truthiness of a JSON value. */
  predicate Truthy(j: Json) {
    match j
    case JNull => false
    case JBool(b) => b
    case JNum(n) => n != 0
    case JStr(s) => s != ""
    case _ => true
  }

  /** The decimal numeral of `n`, as an array index becomes a property key. */
  function Decimal(n: nat): (r: string)
    ensures |r| > 0
    ensures forall i :: 0 <= i < |r| ==> '0' <= r[i] <= '9'
  {
    var d := ['0' + (n % 10) as char];
    if n < 10 then d else Decimal(n / 10) + d
  }

  /** Entries `e` contributes to an object spread `{ ...e }`: the properties
      of an object (a repeated key keeps its first position and its last
      value), the indices of an array or a string, nothing for the rest. */
  function SpreadEntries(j: Json): Record<Json> {
    match j
    case JObj(fields) => AssignAll([], fields)
    case JArr(items) => Indexed(items, 0)
    case JStr(s) => Indexed(seq(|s|, i requires 0 <= i < |s| => JStr([s[i]])), 0)
    case _ => []
  }

  function Indexed(items: seq<Json>, from: nat): (r: Record<Json>)
    ensures |r| == |items|
    decreases |items|
  {
    if items == [] then [] else [(Decimal(from), items[0])] + Indexed(items[1..], from + 1)
  }

  /** `{ ...base, ...over }`. */
  function Merge(base: Json, over: Json): (r: Json)
    ensures r.JObj?
    ensures forall k :: k in Keys(SpreadEntries(over)) ==>
      Lookup(r.fields, k) == LastValue(SpreadEntries(over), k)
    ensures forall k :: k !in Keys(SpreadEntries(over)) ==>
      Lookup(r.fields, k) == Lookup(SpreadEntries(base), k)
  {
    var r := AssignAll(SpreadEntries(base), SpreadEntries(over));
    forall k ensures k in Keys(SpreadEntries(over)) ==> Lookup(r, k) == LastValue(SpreadEntries(over), k)
      ensures k !in Keys(SpreadEntries(over)) ==> Lookup(r, k) == Lookup(SpreadEntries(base), k)
    {
      AssignAllLookup(SpreadEntries(base), SpreadEntries(over), k);
    }
    JObj(r)
  }
}

=== FILE: matcher.dfy ===
/** Endpoint keys: path normalisation and the allow-list test. */
module Matcher {
  import opened Wrappers
  import opened Strings
  import opened Records

  /** Whether the regular expression `\{[^}]+\}` matches at the start of `s`,
      and if so the index of its closing brace: the first `}` after the
      opening brace, with at least one character between them. */
  function GroupEnd(s: string): (r: int)
    requires s != [] && s[0] == '{'
    ensures r == -1 || (2 <= r < |s| && s[r] == '}' && '}' !in s[1..r])
    ensures r == -1 <==> '}' !in s[1..] || s[1] == '}'
  {
    var k := IndexOf(s[1..], '}');
    assert k > 0 ==> s[1..][..k] == s[1..k + 1];
    if k >= 1 then k + 1 else -1
  }

  /** The index of the first rule whose pattern occurs in `group`, or -1. */
  function FirstRule(group: string, rules: Record<string>): (k: int)
    ensures -1 <= k < |rules|
    ensures k == -1 <==> forall j :: 0 <= j < |rules| ==> !Contains(group, rules[j].0)
    ensures k >= 0 ==> Contains(group, rules[k].0) && forall j :: 0 <= j < k ==> !Contains(group, rules[j].0)
  {
    if rules == [] then -1
    else if Contains(group, rules[0].0) then 0
    else
      var k := FirstRule(group, rules[1..]);
      assert forall j :: 1 <= j < |rules| ==> rules[j] == rules[1..][j - 1];
      if k == -1 then -1 else k + 1
  }

  /** The replacement for one matched group (braces included): the
      replacement of the first rule whose pattern occurs in the group text,
      or else `:` followed by the text between the braces. */
  function ReplaceGroup(group: string, rules: Record<string>): (r: string)
    requires |group| >= 2
    ensures (forall k :: 0 <= k < |rules| ==> !Contains(group, rules[k].0)) ==>
      r == ":" + group[1..|group| - 1]
    ensures (exists k :: 0 <= k < |rules| && Contains(group, rules[k].0)) ==>
      exists k :: 0 <= k < |rules| && Contains(group, rules[k].0) && r == rules[k].1
        && forall j :: 0 <= j < k ==> !Contains(group, rules[j].0)
  {
    var k := FirstRule(group, rules);
    if k == -1 then ":" + group[1..|group| - 1] else rules[k].1
  }

  /** `normalizePath(path, rules)`. Its first step, `replace(/:(\w+)/g,
      ':$1')`, puts back what it matched and is left out; the second
      replaces every `{...}` group, scanning left to right. */
  function NormalizePath(path: string, rules: Record<string>): string
    decreases |path|
  {
    if path == [] then []
    else if path[0] == '{' && GroupEnd(path) != -1 then
      var e := GroupEnd(path);
      ReplaceGroup(path[..e + 1], rules) + NormalizePath(path[e + 1..], rules)
    else [path[0]] + NormalizePath(path[1..], rules)
  }

  /** Text before the first `{` is copied unchanged. */
  lemma {:induction false} NormalizePrefix(a: string, t: string, rules: Record<string>)
    requires '{' !in a
    ensures NormalizePath(a + t, rules) == a + NormalizePath(t, rules)
    decreases |a|
  {
    if a != [] {
      assert (a + t)[0] == a[0] && (a + t)[1..] == a[1..] + t;
      NormalizePrefix(a[1..], t, rules);
    } else {
      assert a + t == t;
    }
  }

  /** A path with no `{`, or with no `}`, has no group and is unchanged. */
  lemma {:induction false} NormalizeNoGroup(path: string, rules: Record<string>)
    requires '{' !in path || '}' !in path
    ensures NormalizePath(path, rules) == path
    decreases |path|
  {
    if path != [] {
      assert '{' !in path[1..] || '}' !in path[1..];
      if path[0] == '{' {
        assert '}' !in path[1..];
        assert GroupEnd(path) == -1;
      }
      NormalizeNoGroup(path[1..], rules);
      assert path == [path[0]] + path[1..];
    }
  }

  /** A group `{inner}` is replaced as a whole (first matching rule, else
      `:inner`) and the scan continues after its closing brace. */
  lemma NormalizeGroup(inner: string, rest: string, rules: Record<string>)
    requires inner != [] && '}' !in inner
    ensures NormalizePath("{" + inner + "}" + rest, rules)
         == ReplaceGroup("{" + inner + "}", rules) + NormalizePath(rest, rules)
  {
    var p := "{" + inner + "}" + rest;
    assert p[1..][|inner|] == '}' && p[1..][..|inner|] == inner;
    assert GroupEnd(p) == |inner| + 1;
    assert p[..|inner| + 2] == "{" + inner + "}";
    assert p[|inner| + 2..] == rest;
  }

  /** A character that does not open a group is copied. */
  lemma NormalizeCopies(path: string, rules: Record<string>)
    requires path != [] && (path[0] != '{' || GroupEnd(path) == -1)
    ensures NormalizePath(path, rules) == [path[0]] + NormalizePath(path[1..], rules)
  {
  }

  /** An empty `{}` is not a group: both braces are copied. */
  lemma NormalizeEmptyBraces(path: string, rules: Record<string>)
    requires |path| >= 2 && path[0] == '{' && path[1] == '}'
    ensures NormalizePath(path, rules) == "{}" + NormalizePath(path[2..], rules)
  {
    NormalizeCopies(path, rules);
    NormalizeCopies(path[1..], rules);
    assert path[1..][1..] == path[2..];
  }

  /** A path ending in its only group keeps its prefix and replaces the
      group. */
  lemma NormalizeTrailingGroup(prefix: string, inner: string, rules: Record<string>)
    requires '{' !in prefix && inner != [] && '}' !in inner
    ensures NormalizePath(prefix + "{" + inner + "}", rules) == prefix + ReplaceGroup("{" + inner + "}", rules)
  {
    var g := "{" + inner + "}";
    NormalizePrefix(prefix, g, rules);
    NormalizeWholeGroup(inner, rules);
    assert prefix + "{" + inner + "}" == prefix + g;
  }

  /** A path that is one group is its replacement. */
  lemma NormalizeWholeGroup(inner: string, rules: Record<string>)
    requires inner != [] && '}' !in inner
    ensures NormalizePath("{" + inner + "}", rules) == ReplaceGroup("{" + inner + "}", rules)
  {
    var p := "{" + inner + "}";
    assert p[1..][|inner|] == '}' && p[1..][..|inner|] == inner;
    assert GroupEnd(p) == |inner| + 1;
    assert p[..|inner| + 2] == p;
    assert p[|inner| + 2..] == [];
  }

  /** With no rules, a trailing `{inner}` becomes `:inner`. */
  lemma NormalizeTrailingDefault(prefix: string, inner: string)
    requires '{' !in prefix && inner != [] && '}' !in inner
    ensures NormalizePath(prefix + "{" + inner + "}", []) == prefix + ":" + inner
  {
    var g := "{" + inner + "}";
    NormalizeTrailingGroup(prefix, inner, []);
    assert g[1..|g| - 1] == inner;
    assert ReplaceGroup(g, []) == ":" + inner;
    assert prefix + (":" + inner) == prefix + ":" + inner;
  }

  /** With no rules, `{name}` becomes `:name`. */
  lemma NormalizeDefaultExample(path: string)
    requires path == "/users/{id}"
    ensures NormalizePath(path, []) == "/users/:id"
  {
    assert path == "/users/" + "{" + "id" + "}";
    NormalizeTrailingDefault("/users/", "id");
    assert "/users/" + ":" + "id" == "/users/:id";
  }

  /** A rule whose pattern the group contains supplies the replacement. */
  lemma NormalizeRuleExample(path: string, rules: Record<string>)
    requires path == "/users/{id}" && rules == [("id", ":userId")]
    ensures NormalizePath(path, rules) == "/users/:userId"
  {
    NormalizeTrailingGroup("/users/", "id", rules);
    var g := "{" + "id" + "}";
    assert g[1..3] == "id";
    ContainsAt(g, "id", 1);
    assert FirstRule(g, rules) == 0;
    assert ReplaceGroup(g, rules) == ":userId";
    assert "/users/" + "{" + "id" + "}" == path;
    assert "/users/" + ":userId" == "/users/:userId";
  }

  /** Rules are tried in order, and a pattern may mention the braces. */
  lemma NormalizeRuleOrderExample(path: string, rules: Record<string>)
    requires path == "/users/{id}" && rules == [("user", ":u"), ("{id}", ":key"), ("id", ":userId")]
    ensures NormalizePath(path, rules) == "/users/:key"
  {
    NormalizeTrailingGroup("/users/", "id", rules);
    var g := "{" + "id" + "}";
    assert g[0..4] == "{id}";
    ContainsAt(g, "{id}", 0);
    assert !StartsWith(g, "user") && !Contains(g[1..], "user");
    assert FirstRule(g, rules) == 1;
    assert "/users/" + "{" + "id" + "}" == path;
  }

  /** The allow-list key of an endpoint: `METHOD normalizedPath`. */
  function EndpointKey(verb: string, path: string, rules: Record<string>): string {
    verb + " " + NormalizePath(path, rules)
  }

  /** `shouldIncludeEndpoint`: the allow-list maps the endpoint's key to
      true; a key the allow-list lacks yields false. */
  function ShouldIncludeEndpoint(verb: string, path: string, endpoints: Record<bool>, rules: Record<string>): (r: bool)
    ensures EndpointKey(verb, path, rules) !in Keys(endpoints) ==> !r
    ensures r ==> (EndpointKey(verb, path, rules), true) in endpoints
    ensures forall i :: (0 <= i < |endpoints| && endpoints[i].0 == EndpointKey(verb, path, rules)
                         && EndpointKey(verb, path, rules) !in Keys(endpoints[..i])) ==> (r <==> endpoints[i].1)
  {
    var key := EndpointKey(verb, path, rules);
    forall i | 0 <= i < |endpoints| && endpoints[i].0 == key && key !in Keys(endpoints[..i]) {
      LookupIsFirst(endpoints, key, i);
    }
    Lookup(endpoints, key) == Some(true)
  }
}

=== FILE: organize.dfy ===
/** The organize stage: the request tree is flattened and rebuilt as nested
    folders that mirror the URL path segments. */
module Organize {
  import opened Wrappers
  import opened Strings
  import opened Types
  import opened Walker

  /** `flattenRequests`: the requests in tree order. A request is taken as a
      whole; only non-request items with an `item` array are entered. */
  function FlattenRequests(items: seq<Item>): (r: seq<Item>)
    ensures forall x :: x in r ==> IsRequest(x)
    decreases items
  {
    if items == [] then []
    else (if IsRequest(items[0]) then [items[0]] else FlattenBelow(items[0])) + FlattenRequests(items[1..])
  }

  function FlattenBelow(it: Item): (r: seq<Item>)
    ensures forall x :: x in r ==> IsRequest(x)
    decreases it
  {
    match it.children
    case NoItems => []
    case Items(cs) => FlattenRequests(cs)
  }

  /** The requests of a sequence of items, in order. */
  function RequestsIn(s: seq<Item>): (r: seq<Item>)
    ensures forall x :: x in r <==> x in s && IsRequest(x)
  {
    if s == [] then [] else (if IsRequest(s[0]) then [s[0]] else []) + RequestsIn(s[1..])
  }

  lemma {:induction false} RequestsInAppend(a: seq<Item>, b: seq<Item>)
    ensures RequestsIn(a + b) == RequestsIn(a) + RequestsIn(b)
  {
    if a == [] {
      assert a + b == b;
    } else {
      assert (a + b)[0] == a[0] && (a + b)[1..] == a[1..] + b;
      RequestsInAppend(a[1..], b);
    }
  }

  /** No request carries an `item` array of its own (the Postman schema's
      "an item is a folder or a request"). */
  predicate NoNestedRequests(items: seq<Item>) {
    forall x :: x in Walk(items) && IsRequest(x) ==> x.children.NoItems?
  }

  /** When no request has children, flattening yields exactly the requests
      the walker visits, in the same order. */
  lemma {:induction false} FlattenIsWalkedRequests(items: seq<Item>)
    requires NoNestedRequests(items)
    ensures FlattenRequests(items) == RequestsIn(Walk(items))
    decreases items
  {
    if items != [] {
      var it := items[0];
      NoNestedRequestsParts(items);
      RequestsInAppend([it] + WalkChildren(it), Walk(items[1..]));
      RequestsInAppend([it], WalkChildren(it));
      if it.children.Items? {
        FlattenIsWalkedRequests(it.children.items);
      }
      FlattenIsWalkedRequests(items[1..]);
      var head := if IsRequest(it) then [it] else FlattenBelow(it);
      assert RequestsIn([it]) == (if IsRequest(it) then [it] else []);
      assert RequestsIn([it]) + RequestsIn(WalkChildren(it)) == head;
      calc {
        RequestsIn(Walk(items));
        RequestsIn([it] + WalkChildren(it)) + RequestsIn(Walk(items[1..]));
        head + FlattenRequests(items[1..]);
        FlattenRequests(items);
      }
    }
  }

  lemma NoNestedRequestsParts(items: seq<Item>)
    requires items != [] && NoNestedRequests(items)
    ensures Walk(items) == [items[0]] + WalkChildren(items[0]) + Walk(items[1..])
    ensures IsRequest(items[0]) ==> items[0].children.NoItems?
    ensures items[0].children.Items? ==> NoNestedRequests(items[0].children.items)
    ensures NoNestedRequests(items[1..])
  {
    assert items[0] in Walk(items);
  }

  // Path segments.

  /** The two `filter` calls of `extractSegments`. */
  predicate KeepSegment(seg: string, excludePathParams: bool) {
    seg != "" && !EndsWith(seg, ":")
    && (!excludePathParams || (!StartsWith(seg, ":") && !StartsWith(seg, "{")))
  }

  /** `segments.filter(...)`: the kept segments, in their original order. */
  function KeepSegments(segs: seq<string>, excludePathParams: bool): (r: seq<string>)
    ensures |r| <= |segs|
    ensures forall s :: s in r <==> s in segs && KeepSegment(s, excludePathParams)
    ensures |segs| == 1 ==> r == (if KeepSegment(segs[0], excludePathParams) then segs else [])
  {
    if segs == [] then []
    else if KeepSegment(segs[0], excludePathParams) then [segs[0]] + KeepSegments(segs[1..], excludePathParams)
    else KeepSegments(segs[1..], excludePathParams)
  }

  /** `extractSegments`: the non-empty pieces of the path between slashes,
      dropping pieces that end in `:` and, when excluding parameters, pieces
      that start with `:` or `{`. */
  function ExtractSegments(path: string, excludePathParams: bool): (r: seq<string>)
    ensures forall s :: s in r ==> KeepSegment(s, excludePathParams) && '/' !in s
    ensures forall s :: s in r <==> s in Split(path, '/') && KeepSegment(s, excludePathParams)
  {
    KeepSegments(Split(path, '/'), excludePathParams)
  }

  /** The filter keeps order and multiplicity: filtering a concatenation
      filters each part and concatenates the results. */
  lemma {:induction false} KeepSegmentsAppend(a: seq<string>, b: seq<string>, excludePathParams: bool)
    ensures KeepSegments(a + b, excludePathParams) == KeepSegments(a, excludePathParams) + KeepSegments(b, excludePathParams)
    decreases |a|
  {
    if a != [] {
      assert (a + b)[0] == a[0] && (a + b)[1..] == a[1..] + b;
      KeepSegmentsAppend(a[1..], b, excludePathParams);
    } else {
      assert a + b == b;
    }
  }

  /** `segments.slice(0, config.nestingLevel || Infinity)`. */
  function Truncate(segs: seq<string>, nestingLevel: Option<int>): (r: seq<string>)
    ensures |r| <= |segs| && r == segs[..|r|]
    ensures nestingLevel.None? || nestingLevel.value == 0 ==> r == segs
    ensures nestingLevel.Some? && nestingLevel.value > 0 ==>
      |r| == (if nestingLevel.value < |segs| then nestingLevel.value else |segs|)
    ensures nestingLevel.Some? && nestingLevel.value < 0 ==>
      |r| == (if |segs| + nestingLevel.value > 0 then |segs| + nestingLevel.value else 0)
  {
    match nestingLevel
    case None => segs
    case Some(n) =>
      if n == 0 || n >= |segs| then segs
      else if n > 0 then segs[..n]
      else if |segs| + n > 0 then segs[..|segs| + n]
      else []
  }

  /** The folder names a request is filed under. */
  function SegmentsFor(it: Item, excludePathParams: bool, nestingLevel: Option<int>): seq<string>
    requires IsRequest(it)
  {
    Truncate(ExtractSegments(GetUrlPath(it.request.value.url), excludePathParams), nestingLevel)
  }

  /** The requests `buildResourceHierarchy` files: a truthy URL and at least
      one segment. */
  predicate Placeable(it: Item, excludePathParams: bool, nestingLevel: Option<int>) {
    IsRequest(it) && HasUrl(it.request.value) && |SegmentsFor(it, excludePathParams, nestingLevel)| > 0
  }

  // The hierarchy, built one request at a time.

  /** `{ name: segment, item: [] }`. */
  function NewFolder(name: string): (f: Item)
    ensures IsFolder(f) && f.name == name
  {
    Item(None, name, None, Items([]), None, None, None)
  }

  /** The position of the folder called `name` among `nodes`, or -1. */
  function FindFolder(nodes: seq<Item>, name: string): (k: int)
    ensures -1 <= k < |nodes|
    ensures k == -1 <==> forall j :: 0 <= j < |nodes| ==> !(IsFolder(nodes[j]) && nodes[j].name == name)
    ensures k >= 0 ==> IsFolder(nodes[k]) && nodes[k].name == name
  {
    if nodes == [] then -1
    else if IsFolder(nodes[0]) && nodes[0].name == name then 0
    else
      var k := FindFolder(nodes[1..], name);
      assert forall j :: 1 <= j < |nodes| ==> nodes[j] == nodes[1..][j - 1];
      if k == -1 then -1 else k + 1
  }

  /** A fresh chain of folders named `segs`, the request in the last. */
  function Chain(segs: seq<string>, req: Item): (f: Item)
    requires |segs| > 0
    ensures IsFolder(f) && f.name == segs[0]
    decreases |segs|
  {
    NewFolder(segs[0]).(children := Items(if |segs| == 1 then [req] else [Chain(segs[1..], req)]))
  }

  /** Files `req` under the folder chain `segs` below `nodes`: existing
      folders are reused, missing ones are created at the end of their
      parent's list, and the request is appended to the last folder. */
  function Insert(nodes: seq<Item>, segs: seq<string>, req: Item): (r: seq<Item>)
    requires |segs| > 0
    decreases |segs|, 0
  {
    var k := FindFolder(nodes, segs[0]);
    if k == -1 then nodes + [Chain(segs, req)]
    else nodes[..k] + [InsertInto(nodes[k], segs[1..], req)] + nodes[k + 1..]
  }

  function InsertInto(folder: Item, rest: seq<string>, req: Item): (f: Item)
    requires IsFolder(folder)
    ensures IsFolder(f) && f.name == folder.name
    decreases |rest|, 1
  {
    if rest == [] then folder.(children := Items(folder.children.items + [req]))
    else folder.(children := Items(Insert(folder.children.items, rest, req)))
  }

  /** One iteration of `buildResourceHierarchy`'s loop. */
  function Place(nodes: seq<Item>, it: Item, excludePathParams: bool, nestingLevel: Option<int>): seq<Item> {
    if Placeable(it, excludePathParams, nestingLevel)
    then Insert(nodes, SegmentsFor(it, excludePathParams, nestingLevel), it)
    else nodes
  }

  function PlaceAll(nodes: seq<Item>, items: seq<Item>, excludePathParams: bool, nestingLevel: Option<int>): seq<Item>
    decreases |items|
  {
    if items == [] then nodes
    else PlaceAll(Place(nodes, items[0], excludePathParams, nestingLevel), items[1..], excludePathParams, nestingLevel)
  }

  /** `buildResourceHierarchy`: the top-level folders, in creation order. */
  function BuildResourceHierarchy(items: seq<Item>, excludePathParams: bool, nestingLevel: Option<int>): seq<Item> {
    PlaceAll([], items, excludePathParams, nestingLevel)
  }

  // Where the requests end up.

  /** Every request of the tree paired with the names of the folders above
      it; folders are entered, requests are not. */
  function Placed(nodes: seq<Item>, prefix: seq<string>): seq<(seq<string>, Item)>
    decreases nodes
  {
    if nodes == [] then [] else PlacedNode(nodes[0], prefix) + Placed(nodes[1..], prefix)
  }

  function PlacedNode(n: Item, prefix: seq<string>): seq<(seq<string>, Item)>
    decreases n
  {
    if IsRequest(n) then [(prefix, n)]
    else match n.children
      case NoItems => []
      case Items(cs) => Placed(cs, prefix + [n.name])
  }

  lemma {:induction false} PlacedAppend(a: seq<Item>, b: seq<Item>, prefix: seq<string>)
    ensures Placed(a + b, prefix) == Placed(a, prefix) + Placed(b, prefix)
    decreases a
  {
    if a == [] {
      assert a + b == b;
    } else {
      assert (a + b)[0] == a[0] && (a + b)[1..] == a[1..] + b;
      PlacedAppend(a[1..], b, prefix);
    }
  }

  lemma {:induction false} ChainPlaced(segs: seq<string>, req: Item, prefix: seq<string>)
    requires |segs| > 0 && IsRequest(req)
    ensures PlacedNode(Chain(segs, req), prefix) == [(prefix + segs, req)]
    decreases |segs|
  {
    var p := prefix + [segs[0]];
    if |segs| == 1 {
      assert Placed([req], p) == [(p, req)] + Placed([], p);
      assert p == prefix + segs;
    } else {
      ChainPlaced(segs[1..], req, p);
      assert Placed([Chain(segs[1..], req)], p) == PlacedNode(Chain(segs[1..], req), p) + Placed([], p);
      assert p + segs[1..] == prefix + segs;
    }
  }

  /** Filing a request adds exactly one placement, under its own segments,
      and moves nothing else. */
  lemma {:induction false} InsertPlaced(nodes: seq<Item>, segs: seq<string>, req: Item, prefix: seq<string>)
    requires |segs| > 0 && IsRequest(req)
    ensures multiset(Placed(Insert(nodes, segs, req), prefix))
         == multiset(Placed(nodes, prefix)) + multiset{(prefix + segs, req)}
    decreases |segs|, 1
  {
    var k := FindFolder(nodes, segs[0]);
    if k == -1 {
      PlacedAppend(nodes, [Chain(segs, req)], prefix);
      ChainPlaced(segs, req, prefix);
      assert Placed([Chain(segs, req)], prefix) == PlacedNode(Chain(segs, req), prefix) + Placed([], prefix);
    } else {
      InsertPlacedFound(nodes, k, segs, req, prefix);
    }
  }

  lemma {:induction false} InsertPlacedFound(nodes: seq<Item>, k: nat, segs: seq<string>, req: Item, prefix: seq<string>)
    requires |segs| > 0 && IsRequest(req) && k == FindFolder(nodes, segs[0])
    ensures multiset(Placed(Insert(nodes, segs, req), prefix))
         == multiset(Placed(nodes, prefix)) + multiset{(prefix + segs, req)}
    decreases |segs|, 0
  {
    var n' := InsertInto(nodes[k], segs[1..], req);
    assert Insert(nodes, segs, req) == nodes[..k] + [n'] + nodes[k + 1..];
    InsertIntoPlaced(nodes[k], segs[1..], req, prefix);
    PathCons(prefix, segs);
    ReplaceNodePlaced(nodes, k, n', prefix, multiset{(prefix + segs, req)});
  }

  /** Replacing one node by a node with extra placements adds exactly
      those placements. */
  lemma ReplaceNodePlaced(nodes: seq<Item>, k: nat, n': Item, prefix: seq<string>, x: multiset<(seq<string>, Item)>)
    requires k < |nodes|
    requires multiset(PlacedNode(n', prefix)) == multiset(PlacedNode(nodes[k], prefix)) + x
    ensures multiset(Placed(nodes[..k] + [n'] + nodes[k + 1..], prefix)) == multiset(Placed(nodes, prefix)) + x
  {
    var a, b := nodes[..k], nodes[k + 1..];
    PlacedAppend(a + [n'], b, prefix);
    PlacedAppend(a, [n'], prefix);
    assert Placed([n'], prefix) == PlacedNode(n', prefix) + Placed([], prefix);
    PlacedSplit(nodes, k, prefix);
  }

  lemma PathCons(prefix: seq<string>, segs: seq<string>)
    requires segs != []
    ensures prefix + [segs[0]] + segs[1..] == prefix + segs
  {
  }

  /** The placements of a list split around one of its nodes. */
  lemma PlacedSplit(nodes: seq<Item>, k: nat, prefix: seq<string>)
    requires k < |nodes|
    ensures multiset(Placed(nodes, prefix))
         == multiset(Placed(nodes[..k], prefix)) + multiset(PlacedNode(nodes[k], prefix)) + multiset(Placed(nodes[k + 1..], prefix))
  {
    var n := nodes[k];
    assert nodes == nodes[..k] + [n] + nodes[k + 1..];
    PlacedAppend(nodes[..k] + [n], nodes[k + 1..], prefix);
    PlacedAppend(nodes[..k], [n], prefix);
    assert Placed([n], prefix) == PlacedNode(n, prefix) + Placed([], prefix);
  }

  lemma {:induction false} InsertIntoPlaced(folder: Item, rest: seq<string>, req: Item, prefix: seq<string>)
    requires IsFolder(folder) && IsRequest(req)
    ensures multiset(PlacedNode(InsertInto(folder, rest, req), prefix))
         == multiset(PlacedNode(folder, prefix)) + multiset{(prefix + [folder.name] + rest, req)}
    decreases |rest|, 2
  {
    var p := prefix + [folder.name];
    var cs := folder.children.items;
    if rest == [] {
      PlacedAppend(cs, [req], p);
      assert Placed([req], p) == [(p, req)] + Placed([], p);
      assert p + rest == p;
    } else {
      InsertPlaced(cs, rest, req, p);
    }
  }

  /** The placements the loop is asked to make, in request order. */
  function Placements(items: seq<Item>, excludePathParams: bool, nestingLevel: Option<int>): seq<(seq<string>, Item)> {
    if items == [] then []
    else
      (if Placeable(items[0], excludePathParams, nestingLevel)
       then [(SegmentsFor(items[0], excludePathParams, nestingLevel), items[0])] else [])
      + Placements(items[1..], excludePathParams, nestingLevel)
  }

  lemma {:induction false} PlaceAllPlaced(nodes: seq<Item>, items: seq<Item>, excludePathParams: bool, nestingLevel: Option<int>)
    ensures multiset(Placed(PlaceAll(nodes, items, excludePathParams, nestingLevel), []))
         == multiset(Placed(nodes, [])) + multiset(Placements(items, excludePathParams, nestingLevel))
    decreases |items|
  {
    if items != [] {
      var it := items[0];
      var nodes' := Place(nodes, it, excludePathParams, nestingLevel);
      if Placeable(it, excludePathParams, nestingLevel) {
        var segs := SegmentsFor(it, excludePathParams, nestingLevel);
        InsertPlaced(nodes, segs, it, []);
        assert [] + segs == segs;
      }
      PlaceAllPlaced(nodes', items[1..], excludePathParams, nestingLevel);
    }
  }

  /** Coverage: every request with a URL and at least one segment is filed
      exactly once (as many times as it occurs in the input), under the
      folder chain whose names are its segments; nothing else is filed. */
  lemma BuildPlacesEachRequestOnce(items: seq<Item>, excludePathParams: bool, nestingLevel: Option<int>)
    ensures multiset(Placed(BuildResourceHierarchy(items, excludePathParams, nestingLevel), []))
         == multiset(Placements(items, excludePathParams, nestingLevel))
  {
    PlaceAllPlaced([], items, excludePathParams, nestingLevel);
  }

  lemma {:induction false} PlacementsBounded(items: seq<Item>, excludePathParams: bool, n: int)
    requires n > 0
    ensures forall p :: p in Placements(items, excludePathParams, Some(n)) ==> |p.0| <= n
  {
    if items != [] {
      PlacementsBounded(items[1..], excludePathParams, n);
    }
  }

  /** No request sits deeper than `nestingLevel` folders. */
  lemma BuildRespectsNesting(items: seq<Item>, excludePathParams: bool, n: int)
    requires n > 0
    ensures forall p :: p in Placed(BuildResourceHierarchy(items, excludePathParams, Some(n)), []) ==> 0 < |p.0| <= n
  {
    BuildPlacesEachRequestOnce(items, excludePathParams, Some(n));
    PlacementsBounded(items, excludePathParams, n);
    PlacementsNonEmpty(items, excludePathParams, Some(n));
    forall p | p in Placed(BuildResourceHierarchy(items, excludePathParams, Some(n)), [])
      ensures 0 < |p.0| <= n
    {
      assert p in multiset(Placed(BuildResourceHierarchy(items, excludePathParams, Some(n)), []));
      assert p in multiset(Placements(items, excludePathParams, Some(n)));
    }
  }

  lemma {:induction false} PlacementsNonEmpty(items: seq<Item>, excludePathParams: bool, nestingLevel: Option<int>)
    ensures forall p :: p in Placements(items, excludePathParams, nestingLevel) ==> |p.0| > 0
  {
    if items != [] {
      PlacementsNonEmpty(items[1..], excludePathParams, nestingLevel);
    }
  }

  // Sibling folders never share a name.

  predicate UniqueFolderNames(nodes: seq<Item>)
    decreases nodes
  {
    && (forall i, j :: 0 <= i < j < |nodes| && IsFolder(nodes[i]) && IsFolder(nodes[j]) ==> nodes[i].name != nodes[j].name)
    && (forall i :: 0 <= i < |nodes| && IsFolder(nodes[i]) ==> UniqueFolderNames(nodes[i].children.items))
  }

  lemma {:induction false} ChainUnique(segs: seq<string>, req: Item)
    requires |segs| > 0 && IsRequest(req)
    ensures UniqueFolderNames(Chain(segs, req).children.items)
    decreases |segs|
  {
    if |segs| > 1 {
      ChainUnique(segs[1..], req);
    }
  }

  lemma {:induction false} InsertUnique(nodes: seq<Item>, segs: seq<string>, req: Item)
    requires |segs| > 0 && IsRequest(req) && UniqueFolderNames(nodes)
    ensures UniqueFolderNames(Insert(nodes, segs, req))
    decreases |segs|, 0
  {
    var k := FindFolder(nodes, segs[0]);
    var r := Insert(nodes, segs, req);
    if k == -1 {
      ChainUnique(segs, req);
      assert forall i :: 0 <= i < |nodes| ==> r[i] == nodes[i];
    } else {
      InsertIntoUnique(nodes[k], segs[1..], req);
      assert forall i :: 0 <= i < |nodes| && i != k ==> r[i] == nodes[i];
      assert r[k] == InsertInto(nodes[k], segs[1..], req);
    }
  }

  lemma {:induction false} InsertIntoUnique(folder: Item, rest: seq<string>, req: Item)
    requires IsFolder(folder) && IsRequest(req) && UniqueFolderNames(folder.children.items)
    ensures UniqueFolderNames(InsertInto(folder, rest, req).children.items)
    decreases |rest|, 1
  {
    var cs := folder.children.items;
    if rest == [] {
      var cs' := cs + [req];
      assert forall i :: 0 <= i < |cs| ==> cs'[i] == cs[i];
    } else {
      InsertUnique(cs, rest, req);
    }
  }

  lemma {:induction false} PlaceAllUnique(nodes: seq<Item>, items: seq<Item>, excludePathParams: bool, nestingLevel: Option<int>)
    requires UniqueFolderNames(nodes)
    ensures UniqueFolderNames(PlaceAll(nodes, items, excludePathParams, nestingLevel))
    decreases |items|
  {
    if items != [] {
      if Placeable(items[0], excludePathParams, nestingLevel) {
        InsertUnique(nodes, SegmentsFor(items[0], excludePathParams, nestingLevel), items[0]);
      }
      PlaceAllUnique(Place(nodes, items[0], excludePathParams, nestingLevel), items[1..], excludePathParams, nestingLevel);
    }
  }

  /** One folder per distinct segment prefix: at every level, sibling
      folders have distinct names. */
  lemma BuildHasUniqueFolderNames(items: seq<Item>, excludePathParams: bool, nestingLevel: Option<int>)
    ensures UniqueFolderNames(BuildResourceHierarchy(items, excludePathParams, nestingLevel))
  {
    PlaceAllUnique([], items, excludePathParams, nestingLevel);
  }

  // The stage.

  /** `organizeByResources`. */
  function OrganizeByResources(c: Collection, config: Option<OrganizeConfig>): (r: Collection)
    ensures config.None? || !config.value.enabled || config.value.strategy != Some("resources") ==> r == c
    ensures r.info == c.info && r.variable == c.variable && r.event == c.event
    ensures config.Some? && config.value.enabled && config.value.strategy == Some("resources") ==>
      var b := BuildResourceHierarchy(FlattenRequests(c.item), config.value.excludePathParams.GetOr(true), config.value.nestingLevel);
      r == c.(item := if |b| > 0 then b else c.item)
  {
    if config.None? || !config.value.enabled || config.value.strategy != Some("resources") then c
    else
      var exclude := config.value.excludePathParams.GetOr(true);
      var organized := BuildResourceHierarchy(FlattenRequests(c.item), exclude, config.value.nestingLevel);
      c.(item := if |organized| > 0 then organized else c.item)
  }

  /** A run of the stage with the "resources" strategy: when some request
      is placeable, the items become the hierarchy, which files each
      placeable request exactly once under its segments, no deeper than a
      positive nesting level; when none is, the collection is unchanged. */
  lemma OrganizeFilesEachRequestOnce(c: Collection, config: OrganizeConfig)
    requires config.enabled && config.strategy == Some("resources")
    ensures var r := OrganizeByResources(c, Some(config));
      var p := Placements(FlattenRequests(c.item), config.excludePathParams.GetOr(true), config.nestingLevel);
      && (p == [] ==> r == c)
      && (p != [] ==> multiset(Placed(r.item, [])) == multiset(p))
      && (p != [] && config.nestingLevel.Some? && config.nestingLevel.value > 0 ==>
            forall q :: q in Placed(r.item, []) ==> 0 < |q.0| <= config.nestingLevel.value)
  {
    var items := FlattenRequests(c.item);
    var exclude := config.excludePathParams.GetOr(true);
    var b := BuildResourceHierarchy(items, exclude, config.nestingLevel);
    var p := Placements(items, exclude, config.nestingLevel);
    BuildPlacesEachRequestOnce(items, exclude, config.nestingLevel);
    if p == [] {
      PlaceAllUnplaced([], items, exclude, config.nestingLevel);
    } else {
      assert p[0] in multiset(Placed(b, []));
      assert b != [];
      if config.nestingLevel.Some? && config.nestingLevel.value > 0 {
        BuildRespectsNesting(items, exclude, config.nestingLevel.value);
      }
    }
  }

  /** With nothing to place, the loop leaves the nodes as they are. */
  lemma {:induction false} PlaceAllUnplaced(nodes: seq<Item>, items: seq<Item>, excludePathParams: bool, nestingLevel: Option<int>)
    requires Placements(items, excludePathParams, nestingLevel) == []
    ensures PlaceAll(nodes, items, excludePathParams, nestingLevel) == nodes
    decreases |items|
  {
    if items != [] {
      PlaceAllUnplaced(nodes, items[1..], excludePathParams, nestingLevel);
    }
  }
}

=== FILE: pathvariables.dfy ===
/** The path-variables stage: points mapped URL variables at a collection
    or environment variable. */
module PathVariables {
  import opened Wrappers
  import opened Records
  import opened Types
  import opened Walker

  /** One variable after the mapping: a mapped variable takes the
      reference as its value and the mapping's description when that is
      non-empty; an unmapped variable is returned as it is. */
  function MapVariable(mapping: Option<Record<PathMapping>>, v: Variable): (r: Variable)
    ensures r.key == v.key && r.kind == v.kind && r.disabled == v.disabled
    ensures MappingFor(mapping, v.key).None? ==> r == v
    ensures MappingFor(mapping, v.key).Some? ==> r.value == MappingFor(mapping, v.key).value.reference
    ensures MappingFor(mapping, v.key).Some? ==>
      r.description == (if NonEmpty(MappingFor(mapping, v.key).value.description)
                        then Some(Plain(MappingFor(mapping, v.key).value.description.value))
                        else v.description)
  {
    match MappingFor(mapping, v.key)
    case None => v
    case Some(m) =>
      v.(value := m.reference,
         description := if NonEmpty(m.description) then Some(Plain(m.description.value)) else v.description)
  }

  /** `config.mapping?.[key]`. */
  function MappingFor(mapping: Option<Record<PathMapping>>, key: string): Option<PathMapping> {
    match mapping
    case None => None
    case Some(m) => Lookup(m, key)
  }

  /** `url.variable.map(...)`: same length, order and keys; at each
      position a mapped variable takes the reference and an unmapped one is
      kept. */
  function MapVariables(mapping: Option<Record<PathMapping>>, vars: seq<Variable>): (r: seq<Variable>)
    ensures |r| == |vars|
    ensures forall i :: 0 <= i < |vars| ==> r[i].key == vars[i].key && r[i].kind == vars[i].kind
    ensures forall i :: 0 <= i < |vars| && MappingFor(mapping, vars[i].key).None? ==> r[i] == vars[i]
    ensures forall i :: 0 <= i < |vars| && MappingFor(mapping, vars[i].key).Some? ==>
      r[i].value == MappingFor(mapping, vars[i].key).value.reference
      && r[i].description == (if NonEmpty(MappingFor(mapping, vars[i].key).value.description)
                              then Some(Plain(MappingFor(mapping, vars[i].key).value.description.value))
                              else vars[i].description)
  {
    seq(|vars|, i requires 0 <= i < |vars| => MapVariable(mapping, vars[i]))
  }

  /** A request whose URL is an object carrying a variable list. */
  predicate HasVariables(it: Item) {
    IsRequest(it) && it.request.value.url.Some? && it.request.value.url.value.UrlObject?
    && it.request.value.url.value.variable.Some?
  }

  function UrlVariables(it: Item): seq<Variable>
    requires HasVariables(it)
  {
    it.request.value.url.value.variable.value
  }

  function PathVariableHandler(mapping: Option<Record<PathMapping>>, it: Item): (r: Item)
    ensures !HasVariables(it) ==> r == it
    ensures HasVariables(it) ==>
      var req, u := it.request.value, it.request.value.url.value;
      && HasVariables(r) && r.(request := it.request) == it
      && r.request.value.(url := req.url) == req
      && r.request.value.url.value.(variable := u.variable) == u
      && UrlVariables(r) == MapVariables(mapping, u.variable.value)
  {
    if HasVariables(it) then
      var req := it.request.value;
      var u := req.url.value;
      it.(request := Some(req.(url := Some(u.(variable := Some(MapVariables(mapping, u.variable.value)))))))
    else it
  }

  /** The handler `setupPathVariables` passes to the walk. */
  function MappingFn(mapping: Option<Record<PathMapping>>): Item -> Item {
    it => PathVariableHandler(mapping, it)
  }

  /** `setupPathVariables`. */
  function SetupPathVariables(c: Collection, config: Option<PathVariablesConfig>): (r: Collection)
    ensures config.None? || !config.value.enabled ==> r == c
    ensures r.info == c.info && r.variable == c.variable && r.event == c.event
    ensures config.Some? && config.value.enabled ==> r.item == MapTree(c.item, MappingFn(config.value.mapping))
  {
    if config.Some? && config.value.enabled then
      c.(item := MapTree(c.item, MappingFn(config.value.mapping)))
    else c
  }

  /** Position by position over the walk: each item is the handler applied
      to the original; requests with a string URL or no variable list, and
      all non-requests, are untouched; for the others only the URL's
      variable list changes, keeping its length, order and keys, mapped
      variables take their reference and a truthy mapped description and
      keep every other field, unmapped ones stay as they were. */
  lemma PathVariablesEffect(c: Collection, config: PathVariablesConfig)
    requires config.enabled
    ensures var w, w' := Walk(c.item), Walk(SetupPathVariables(c, Some(config)).item);
      && |w'| == |w|
      && (forall i :: 0 <= i < |w| ==> Strip(w'[i]) == Strip(PathVariableHandler(config.mapping, w[i])))
      && (forall i :: 0 <= i < |w| && !HasVariables(w[i]) ==> Strip(w'[i]) == Strip(w[i]))
      && (forall i :: 0 <= i < |w| && HasVariables(w[i]) ==>
            && HasVariables(w'[i])
            && Strip(w'[i]).(request := None) == Strip(w[i]).(request := None)
            && w'[i].request.value.(url := None) == w[i].request.value.(url := None)
            && w'[i].request.value.url.value.(variable := None) == w[i].request.value.url.value.(variable := None)
            && |UrlVariables(w'[i])| == |UrlVariables(w[i])|
            && (forall j :: 0 <= j < |UrlVariables(w[i])| ==>
                  var v, v' := UrlVariables(w[i])[j], UrlVariables(w'[i])[j];
                  && v'.key == v.key
                  && (MappingFor(config.mapping, v.key).None? ==> v' == v)
                  && (MappingFor(config.mapping, v.key).Some? ==> v'.value == MappingFor(config.mapping, v.key).value.reference)
                  && (MappingFor(config.mapping, v.key).Some? ==>
                        v'.(value := v.value, description := v.description) == v
                        && v'.description == (if NonEmpty(MappingFor(config.mapping, v.key).value.description)
                                              then Some(Plain(MappingFor(config.mapping, v.key).value.description.value))
                                              else v.description))))
  {
    var f := MappingFn(config.mapping);
    MapTreeVisits(c.item, f);
    var w, w' := Walk(c.item), Walk(SetupPathVariables(c, Some(config)).item);
    forall i | 0 <= i < |w| && HasVariables(w[i])
      ensures HasVariables(w'[i]) && UrlVariables(w'[i]) == MapVariables(config.mapping, UrlVariables(w[i]))
    {
      assert Strip(w'[i]) == Strip(f(w[i]));
    }
  }
}

=== FILE: pipeline.dfy ===
/** `enrichCollection`: the stages in their fixed order, each gated on its
    configuration section. */
module Pipeline {
  import opened Wrappers
  import opened Records
  import opened Json
  import opened Types
  import opened Walker
  import opened Organize
  import opened Filter
  import opened Descriptions
  import opened Examples
  import opened Variables
  import opened Tests

  /** Step 1: the filter, when configured. */
  function AfterFilter(c: Collection, config: EnrichmentConfig): Collection {
    match config.filter
    case None => c
    case Some(f) => FilterEndpoints(c, f)
  }

  /** Steps 1-2. */
  function AfterDescriptions(c: Collection, config: EnrichmentConfig): Collection {
    AddDescriptions(AfterFilter(c, config), config.descriptions)
  }

  /** Steps 1-3. */
  function AfterExamples(c: Collection, config: EnrichmentConfig, codec: Codec): Collection {
    AddExamples(AfterDescriptions(c, config), config.examples, codec)
  }

  /** Steps 1-4; the variables stage can fail. */
  function AfterVariables(c: Collection, config: EnrichmentConfig, codec: Codec): Result<Collection, string> {
    SetupVariables(AfterExamples(c, config, codec), config.variables)
  }

  /** `enrichCollection` on an already-parsed configuration: filter,
      descriptions, examples, variables, tests. */
  function EnrichCollection(c: Collection, config: EnrichmentConfig, codec: Codec): (r: Result<Collection, string>)
    ensures r.Failure? <==> AfterVariables(c, config, codec).Failure?
    ensures r.Success? ==> r.value == AddTests(AfterVariables(c, config, codec).value, config.tests)
  {
    var enriched :- AfterVariables(c, config, codec);
    Success(AddTests(enriched, config.tests))
  }

  /** The configuration with no section set. */
  predicate Unconfigured(config: EnrichmentConfig) {
    config.filter.None? && config.descriptions.None? && config.examples.None?
    && config.variables.None? && config.tests.None?
  }

  /** An empty configuration returns the collection unchanged (whatever the
      organize and path-variables sections say: no stage reads them). */
  lemma EmptyConfigIsIdentity(c: Collection, config: EnrichmentConfig, codec: Codec)
    requires Unconfigured(config)
    ensures EnrichCollection(c, config, codec) == Success(c)
  {
  }

  /** The orchestrator never calls the organize or path-variables stages:
      their sections do not affect the result. */
  lemma IgnoresOrganizeAndPathVariables(c: Collection, config: EnrichmentConfig, codec: Codec,
                                        organize: Option<OrganizeConfig>, pathVariables: Option<PathVariablesConfig>)
    ensures EnrichCollection(c, config.(organize := organize, pathVariables := pathVariables), codec)
         == EnrichCollection(c, config, codec)
  {
  }

  /** A section that is absent leaves its stage out: the result is that of
      the same pipeline with the stage skipped. */
  lemma AbsentStagesAreSkipped(c: Collection, config: EnrichmentConfig, codec: Codec)
    ensures config.filter.None? ==> AfterFilter(c, config) == c
    ensures config.descriptions.None? ==> AfterDescriptions(c, config) == AfterFilter(c, config)
    ensures config.examples.None? ==> AfterExamples(c, config, codec) == AfterDescriptions(c, config)
    ensures config.variables.None? ==> AfterVariables(c, config, codec) == Success(AfterExamples(c, config, codec))
    ensures config.tests.None? && AfterVariables(c, config, codec).Success? ==>
      EnrichCollection(c, config, codec) == AfterVariables(c, config, codec)
  {
  }

  /** A successful run with a variables section leaves no collection
      variables. */
  lemma VariablesCleared(c: Collection, config: EnrichmentConfig, codec: Codec)
    requires config.variables.Some? && EnrichCollection(c, config, codec).Success?
    ensures EnrichCollection(c, config, codec).value.variable == Some([])
  {
  }

  /** Every request in a tree passes the allow-list. */
  ghost predicate OnlyIncluded(items: seq<Item>, allow: Record<bool>, rules: Record<string>) {
    forall x :: x in Walk(items) && IsRequest(x) ==> Included(x, allow, rules)
  }

  /** The allow-list verdict depends on the endpoint alone. */
  lemma SameEndpointsKeepIncluded(a: seq<Item>, b: seq<Item>, allow: Record<bool>, rules: Record<string>)
    requires SameEndpoints(a, b) && OnlyIncluded(a, allow, rules)
    ensures OnlyIncluded(b, allow, rules)
  {
    forall x | x in Walk(b) && IsRequest(x) ensures Included(x, allow, rules) {
      var i :| 0 <= i < |Walk(b)| && Walk(b)[i] == x;
      assert Endpoint(Walk(a)[i]) == Endpoint(x);
      assert Walk(a)[i] in Walk(a);
    }
  }

  /** Filter runs first: when an allow-list is configured (and no request
      carries children), every request that the descriptions, examples,
      variables and tests stages receive, and every request of the result,
      is on the allow-list. */
  lemma FilterFirst(c: Collection, config: EnrichmentConfig, codec: Codec)
    requires config.filter.Some? && config.filter.value.allow.Some?
    requires NoNestedRequests(c.item)
    ensures var allow, rules := config.filter.value.allow.value, config.filter.value.normalizationRules.GetOr([]);
      && OnlyIncluded(AfterFilter(c, config).item, allow, rules)
      && OnlyIncluded(AfterDescriptions(c, config).item, allow, rules)
      && OnlyIncluded(AfterExamples(c, config, codec).item, allow, rules)
      && (AfterVariables(c, config, codec).Success? ==> OnlyIncluded(AfterVariables(c, config, codec).value.item, allow, rules))
      && (EnrichCollection(c, config, codec).Success? ==> OnlyIncluded(EnrichCollection(c, config, codec).value.item, allow, rules))
  {
    var allow, rules := config.filter.value.allow.value, config.filter.value.normalizationRules.GetOr([]);
    var c1 := AfterFilter(c, config);
    FilterAdmitsOnlyIncluded(c.item, allow, rules);
    var c2 := AfterDescriptions(c, config);
    DescriptionsKeepEndpoints(c1, config.descriptions);
    SameEndpointsKeepIncluded(c1.item, c2.item, allow, rules);
    var c3 := AfterExamples(c, config, codec);
    ExamplesKeepEndpoints(c2, config.examples, codec);
    SameEndpointsKeepIncluded(c2.item, c3.item, allow, rules);
    if AfterVariables(c, config, codec).Success? {
      var c4 := AfterVariables(c, config, codec).value;
      VariablesKeepEndpoints(c3, config.variables);
      SameEndpointsKeepIncluded(c3.item, c4.item, allow, rules);
      TestsKeepEndpoints(c4, config.tests);
      SameEndpointsKeepIncluded(c4.item, AddTests(c4, config.tests).item, allow, rules);
    }
  }
}

=== FILE: preserveids.dfy ===
/** Id preservation: carries item ids and the collection id over from a
    previously generated collection, matching items by a derived key. */
module PreserveIds {
  import opened Wrappers
  import opened Records
  import opened Types
  import opened Walker

  /** `getItemKey`: method and name for a request, "folder_" and name for
      anything else. */
  function ItemKey(it: Item): (r: string)
    ensures IsRequest(it) ==> r == GetRequestMethod(it) + "_" + it.name
    ensures !IsRequest(it) ==> r == "folder_" + it.name
  {
    if IsRequest(it) then GetRequestMethod(it) + "_" + it.name else "folder_" + it.name
  }

  /** The key is not injective: a request whose method is "folder" is
      keyed like the folder of the same name. */
  lemma ItemKeyCollision(folder: Item, request: Item)
    requires !IsRequest(folder) && IsRequest(request)
    requires request.request.value.verb == "folder" && request.name == folder.name
    ensures ItemKey(request) == ItemKey(folder)
  {
  }

  /** The `map.set(key, id)` calls of `buildIdMap`, in walk order: one per
      visited item with a non-empty id. */
  function IdEntries(visits: seq<Item>): (r: Record<string>)
    ensures forall e :: e in r ==> e.1 != ""
    ensures |r| <= |visits|
  {
    if visits == [] then []
    else (if NonEmpty(visits[0].id) then [(ItemKey(visits[0]), visits[0].id.value)] else []) + IdEntries(visits[1..])
  }

  /** `buildIdMap`. */
  function BuildIdMap(prior: Collection): Record<string> {
    AssignAll([], IdEntries(Walk(prior.item)))
  }

  /** A key maps to the id of the last visited item with that key and a
      non-empty id, and never to an empty id. */
  lemma BuildIdMapLookup(prior: Collection, k: string)
    ensures Lookup(BuildIdMap(prior), k) == LastValue(IdEntries(Walk(prior.item)), k)
    ensures Lookup(BuildIdMap(prior), k).Some? ==> Lookup(BuildIdMap(prior), k).value != ""
  {
    AssignAllLookup([], IdEntries(Walk(prior.item)), k);
  }

  /** The handler: an item whose key is in the map takes the mapped id;
      any other item keeps whatever id it had. */
  function RestoreId(ids: Record<string>, it: Item): (r: Item)
    ensures r.(id := it.id) == it
    ensures NonEmpty(Lookup(ids, ItemKey(it))) ==> r.id == Lookup(ids, ItemKey(it))
    ensures !NonEmpty(Lookup(ids, ItemKey(it))) ==> r == it
  {
    match Lookup(ids, ItemKey(it))
    case Some(id) => if id != "" then it.(id := Some(id)) else it
    case None => it
  }

  /** `preserveIds`; `None` stands for a missing or unreadable file. */
  function PreserveIds(c: Collection, prior: Option<Collection>): (r: Collection)
    ensures prior.None? ==> r == c
    ensures r.variable == c.variable && r.event == c.event
    ensures r.info.(postmanId := c.info.postmanId) == c.info
    ensures prior.Some? && NonEmpty(prior.value.info.postmanId) ==> r.info.postmanId == prior.value.info.postmanId
    ensures prior.None? || !NonEmpty(prior.value.info.postmanId) ==> r.info.postmanId == c.info.postmanId
  {
    match prior
    case None => c
    case Some(p) =>
      var ids := BuildIdMap(p);
      var info := if NonEmpty(p.info.postmanId) then c.info.(postmanId := p.info.postmanId) else c.info;
      c.(info := info, item := MapTree(c.item, it => RestoreId(ids, it)))
  }

  /** Position by position over the walk: only ids change, an item whose key
      the prior collection maps takes that id, and any other keeps its own. */
  lemma PreserveIdsEffect(c: Collection, prior: Collection)
    ensures var w, w' := Walk(c.item), Walk(PreserveIds(c, Some(prior)).item);
      && |w'| == |w|
      && (forall i :: 0 <= i < |w| ==> Strip(w'[i]).(id := w[i].id) == Strip(w[i]))
      && (forall i :: 0 <= i < |w| && Lookup(BuildIdMap(prior), ItemKey(w[i])).Some? ==>
            w'[i].id == Lookup(BuildIdMap(prior), ItemKey(w[i])))
      && (forall i :: 0 <= i < |w| && Lookup(BuildIdMap(prior), ItemKey(w[i])).None? ==> w'[i].id == w[i].id)
  {
    var ids := BuildIdMap(prior);
    var f := it => RestoreId(ids, it);
    MapTreeVisits(c.item, f);
    var w, w' := Walk(c.item), Walk(PreserveIds(c, Some(prior)).item);
    forall i | 0 <= i < |w|
      ensures Strip(w'[i]).(id := w[i].id) == Strip(w[i]) && w'[i].id == f(w[i]).id
      ensures Lookup(ids, ItemKey(w[i])).Some? ==> w'[i].id == Lookup(ids, ItemKey(w[i]))
    {
      assert Strip(w'[i]) == Strip(f(w[i]));
      BuildIdMapLookup(prior, ItemKey(w[i]));
    }
  }

  /** No two visited items share a key. */
  predicate DistinctKeys(visits: seq<Item>) {
    forall i, j :: 0 <= i < j < |visits| ==> ItemKey(visits[i]) != ItemKey(visits[j])
  }

  /** With distinct keys, the map sends each visited item's key to its own
      id when that is non-empty, and has no entry for it otherwise. */
  lemma {:induction false} OwnIds(visits: seq<Item>, i: nat)
    requires DistinctKeys(visits) && i < |visits|
    ensures LastValue(IdEntries(visits), ItemKey(visits[i])) ==
      (if NonEmpty(visits[i].id) then visits[i].id else None)
  {
    var head := if NonEmpty(visits[0].id) then [(ItemKey(visits[0]), visits[0].id.value)] else [];
    var tail := IdEntries(visits[1..]);
    assert IdEntries(visits) == head + tail;
    LastValueAppend(head, tail, ItemKey(visits[i]));
    if i == 0 {
      NoOwnKeyAfter(visits);
    } else {
      OwnIds(visits[1..], i - 1);
      assert visits[1..][i - 1] == visits[i];
      assert ItemKey(visits[0]) != ItemKey(visits[i]);
    }
  }

  /** The first item's key is not among the keys the rest contributes. */
  lemma {:induction false} NoOwnKeyAfter(visits: seq<Item>)
    requires DistinctKeys(visits) && visits != []
    ensures ItemKey(visits[0]) !in Keys(IdEntries(visits[1..]))
  {
    var k := ItemKey(visits[0]);
    var rest := visits[1..];
    if k in Keys(IdEntries(rest)) {
      var v := LastValue(IdEntries(rest), k).value;
      KeyComesFrom(rest, k, v);
    }
  }

  /** Every entry of the id map comes from some visited item. */
  lemma {:induction false} KeyComesFrom(visits: seq<Item>, k: string, v: string)
    requires (k, v) in IdEntries(visits)
    ensures exists j :: 0 <= j < |visits| && ItemKey(visits[j]) == k
  {
    var head := if NonEmpty(visits[0].id) then [(ItemKey(visits[0]), visits[0].id.value)] else [];
    assert IdEntries(visits) == head + IdEntries(visits[1..]);
    if (k, v) !in head {
      KeyComesFrom(visits[1..], k, v);
      var j :| 0 <= j < |visits[1..]| && ItemKey(visits[1..][j]) == k;
      assert visits[j + 1] == visits[1..][j];
    }
  }

  /** The last value of a key in `a + b` is its last value in `b`, or in `a`
      when `b` does not have the key. */
  lemma {:induction false} LastValueAppend<V>(a: Record<V>, b: Record<V>, k: string)
    ensures LastValue(a + b, k) == if k in Keys(b) then LastValue(b, k) else LastValue(a, k)
    decreases |a|
  {
    if a == [] {
      assert a + b == b;
    } else {
      assert (a + b)[1..] == a[1..] + b;
      LastValueAppend(a[1..], b, k);
      assert Keys(a) == [a[0].0] + Keys(a[1..]);
    }
  }

  /** Preserving a collection against itself, when no two visited items
      share a key, changes nothing. */
  lemma PreserveAgainstItself(c: Collection)
    requires DistinctKeys(Walk(c.item))
    ensures PreserveIds(c, Some(c)) == c
  {
    var ids := BuildIdMap(c);
    var f := it => RestoreId(ids, it);
    var w := Walk(c.item);
    forall x | x in w ensures f(x) == x {
      var i :| 0 <= i < |w| && w[i] == x;
      OwnIds(w, i);
      BuildIdMapLookup(c, ItemKey(x));
    }
    MapTreeIdentity(c.item, f);
  }
}

=== FILE: records.dfy ===
/** A JavaScript object used as a dictionary (`Record<string, V>` in the
    configuration types), kept as its entries in iteration order. */
module Records {
  import opened Wrappers

  type Record<V> = seq<(string, V)>

  /** `Object.keys(rec)`. */
  function Keys<V>(rec: Record<V>): (r: seq<string>)
    ensures |r| == |rec|
    ensures forall i :: 0 <= i < |rec| ==> r[i] == rec[i].0
  {
    if rec == [] then [] else [rec[0].0] + Keys(rec[1..])
  }

  /** `rec[k]`: the value of the first entry whose key is `k`. */
  function Lookup<V>(rec: Record<V>, k: string): (r: Option<V>)
    ensures r.None? <==> k !in Keys(rec)
    ensures r.Some? ==> (k, r.value) in rec
  {
    if rec == [] then None
    else if rec[0].0 == k then Some(rec[0].1)
    else Lookup(rec[1..], k)
  }

  /** When entry `i` is the first with key `k`, the lookup yields its value. */
  lemma {:induction false} LookupIsFirst<V>(rec: Record<V>, k: string, i: nat)
    requires i < |rec| && rec[i].0 == k && k !in Keys(rec[..i])
    ensures Lookup(rec, k) == Some(rec[i].1)
  {
    if i > 0 {
      assert rec[0].0 == Keys(rec[..i])[0];
      assert Keys(rec[1..][..i - 1]) == Keys(rec[..i])[1..];
      LookupIsFirst(rec[1..], k, i - 1);
    }
  }

  /** `obj[k] = v`: overwrites the first entry with key `k` in place, or
      appends a new entry at the end. */
  function Assign<V>(rec: Record<V>, k: string, v: V): (r: Record<V>)
    ensures k in Keys(rec) ==> Keys(r) == Keys(rec)
    ensures k !in Keys(rec) ==> Keys(r) == Keys(rec) + [k]
  {
    if rec == [] then [(k, v)]
    else if rec[0].0 == k then
      var r := [(k, v)] + rec[1..];
      assert r[1..] == rec[1..];
      r
    else
      var t := Assign(rec[1..], k, v);
      var r := [rec[0]] + t;
      assert r[0] == rec[0] && r[1..] == t;
      assert Keys(rec) == [rec[0].0] + Keys(rec[1..]);
      r
  }

  /** After `obj[k] = v`, reading `k` gives `v` and reading any other key
      gives what it gave before. */
  lemma {:induction false} AssignLookup<V>(rec: Record<V>, k: string, v: V, k': string)
    ensures Lookup(Assign(rec, k, v), k') == if k' == k then Some(v) else Lookup(rec, k')
  {
    if rec != [] && rec[0].0 != k {
      AssignLookup(rec[1..], k, v, k');
      var r := Assign(rec, k, v);
      assert r[0] == rec[0] && r[1..] == Assign(rec[1..], k, v);
    }
  }

  /** Each assignment of `entries`, in order, applied to `rec`. */
  function AssignAll<V>(rec: Record<V>, entries: Record<V>): Record<V>
    decreases |entries|
  {
    if entries == [] then rec
    else AssignAll(Assign(rec, entries[0].0, entries[0].1), entries[1..])
  }

  /** The value the last entry with key `k` carries, if any. */
  function LastValue<V>(entries: Record<V>, k: string): (r: Option<V>)
    ensures r.None? <==> k !in Keys(entries)
    ensures r.Some? ==> (k, r.value) in entries
  {
    if entries == [] then None
    else
      var rest := LastValue(entries[1..], k);
      if rest.Some? then rest
      else if entries[0].0 == k then Some(entries[0].1)
      else None
  }

  /** Later assignments win: after all of them, every assigned key holds the
      last value given to it and every other key keeps its old value. */
  lemma {:induction false} AssignAllLookup<V>(rec: Record<V>, entries: Record<V>, k: string)
    ensures k in Keys(entries) ==> Lookup(AssignAll(rec, entries), k) == LastValue(entries, k)
    ensures k !in Keys(entries) ==> Lookup(AssignAll(rec, entries), k) == Lookup(rec, k)
    decreases |entries|
  {
    if entries != [] {
      var rec' := Assign(rec, entries[0].0, entries[0].1);
      AssignLookup(rec, entries[0].0, entries[0].1, k);
      AssignAllLookup(rec', entries[1..], k);
      assert Keys(entries) == [entries[0].0] + Keys(entries[1..]);
    }
  }

  /** The entries of a JavaScript object never repeat a key. */
  predicate UniqueKeys<V>(rec: Record<V>) {
    forall i, j :: 0 <= i < j < |rec| ==> rec[i].0 != rec[j].0
  }

  /** The first entry's key does not recur, and the rest is again unique. */
  lemma UniqueKeysTail<V>(rec: Record<V>)
    requires rec != [] && UniqueKeys(rec)
    ensures UniqueKeys(rec[1..]) && rec[0].0 !in Keys(rec[1..])
  {
  }
}

=== FILE: strings.dfy ===
/** String helpers over `seq<char>`: ASCII case folding, prefix/substring
    tests, splitting and joining on a separator. */
module Strings {

  predicate IsUpper(c: char) {
    'A' <= c <= 'Z'
  }

  /** ASCII lower-casing of one character. */
  function LowerChar(c: char): (r: char)
    ensures IsUpper(c) ==> r as int == c as int + 32
    ensures !IsUpper(c) ==> r == c
    ensures !IsUpper(r)
  {
    if IsUpper(c) then (c as int + 32) as char else c
  }

  /** `String.prototype.toLowerCase`, restricted to ASCII letters. */
  function Lower(s: string): (r: string)
    ensures |r| == |s|
    ensures forall i :: 0 <= i < |s| ==> r[i] == LowerChar(s[i])
  {
    if s == [] then [] else [LowerChar(s[0])] + Lower(s[1..])
  }

  /** "Get List Users" lower-cased, with "get" and then "list" stripped. */
  lemma LowerStripExample(name: string)
    requires name == "Get List Users"
    ensures Lower(name) == "get list users"
    ensures StripWord(StripWord(Lower(name), "get"), "list") == "users"
  {
    LowerExample(name);
    StripTwoExample(Lower(name));
  }

  lemma LowerExample(name: string)
    requires name == "Get List Users"
    ensures Lower(name) == "get list users"
  {
  }

  lemma StripTwoExample(l: string)
    requires l == "get list users"
    ensures StripWord(StripWord(l, "get"), "list") == "users"
  {
    assert l == "get" + " " + "list" + " " + "users";
    StripTwoWords("get", "list", "users");
  }

  /** Lower-casing goes character by character. */
  lemma LowerAppend(a: string, b: string)
    ensures Lower(a + b) == Lower(a) + Lower(b)
  {
    var x, y := Lower(a + b), Lower(a) + Lower(b);
    forall i | 0 <= i < |x| ensures x[i] == y[i] {
      if i < |a| {
        assert (a + b)[i] == a[i];
      } else {
        assert (a + b)[i] == b[i - |a|];
      }
    }
  }

  lemma LowerIdempotent(s: string)
    ensures Lower(Lower(s)) == Lower(s)
  {
  }

  predicate StartsWith(s: string, p: string) {
    |p| <= |s| && s[..|p|] == p
  }

  predicate EndsWith(s: string, p: string) {
    |p| <= |s| && s[|s| - |p|..] == p
  }

  /** `s.includes(p)`: some window of `s` equals `p`. */
  predicate Contains(s: string, p: string)
    ensures Contains(s, p) ==> |p| <= |s|
    decreases |s|
  {
    StartsWith(s, p) || (|s| > 0 && Contains(s[1..], p))
  }

  lemma {:induction false} ContainsAt(s: string, p: string, i: nat)
    requires i + |p| <= |s|
    requires s[i..i + |p|] == p
    ensures Contains(s, p)
    decreases i
  {
    if i > 0 {
      assert s[1..][i - 1..i - 1 + |p|] == s[i..i + |p|];
      ContainsAt(s[1..], p, i - 1);
    }
  }

  /** The index of the first occurrence of `c` in `s`. */
  function IndexOf(s: string, c: char): (r: int)
    ensures -1 <= r < |s|
    ensures r == -1 <==> c !in s
    ensures 0 <= r ==> s[r] == c && c !in s[..r]
  {
    if s == [] then -1
    else if s[0] == c then 0
    else
      var k := IndexOf(s[1..], c);
      if k == -1 then -1 else k + 1
  }

  /** `s.split(sep)` for a one-character separator. */
  function Split(s: string, sep: char): (r: seq<string>)
    ensures |r| > 0
    ensures forall i :: 0 <= i < |r| ==> sep !in r[i]
    decreases |s|
  {
    var k := IndexOf(s, sep);
    if k == -1 then [s] else [s[..k]] + Split(s[k + 1..], sep)
  }

  /** `parts.join(sep)`. */
  function Join(parts: seq<string>, sep: string): string {
    if parts == [] then ""
    else if |parts| == 1 then parts[0]
    else parts[0] + sep + Join(parts[1..], sep)
  }

  /** Splitting and re-joining on the same separator gives back the input. */
  lemma {:induction false} JoinSplit(s: string, sep: char)
    ensures Join(Split(s, sep), [sep]) == s
    decreases |s|
  {
    var k := IndexOf(s, sep);
    if k != -1 {
      var rest := s[k + 1..];
      assert Split(s, sep) == [s[..k]] + Split(rest, sep);
      JoinSplit(rest, sep);
      JoinCons(s[..k], Split(rest, sep), [sep]);
      assert s == s[..k] + [sep] + rest;
    }
  }

  lemma JoinCons(p: string, parts: seq<string>, sep: string)
    requires parts != []
    ensures Join([p] + parts, sep) == p + sep + Join(parts, sep)
  {
    assert ([p] + parts)[1..] == parts;
  }

  /** Every character of `s` that is not in `drop`, in order
      (`s.replace(/[...]/g, '')`). */
  function RemoveChars(s: string, drop: set<char>): (r: string)
    ensures |r| <= |s|
    ensures forall i :: 0 <= i < |r| ==> r[i] !in drop && r[i] in s
    ensures (forall i :: 0 <= i < |s| ==> s[i] !in drop) ==> r == s
    ensures |s| == 1 ==> r == (if s[0] in drop then [] else s)
  {
    if s == [] then []
    else if s[0] in drop then RemoveChars(s[1..], drop)
    else [s[0]] + RemoveChars(s[1..], drop)
  }

  /** Removal goes character by character: removing from a concatenation
      removes from each part and keeps the survivors in order. */
  lemma {:induction false} RemoveCharsAppend(a: string, b: string, drop: set<char>)
    ensures RemoveChars(a + b, drop) == RemoveChars(a, drop) + RemoveChars(b, drop)
    decreases |a|
  {
    if a != [] {
      assert (a + b)[0] == a[0] && (a + b)[1..] == a[1..] + b;
      RemoveCharsAppend(a[1..], b, drop);
    } else {
      assert a + b == b;
    }
  }

  /** The characters of the regular-expression class `\s` in the ASCII range. */
  predicate IsSpace(c: char) {
    c == ' ' || c == '\t' || c == '\n' || c == '\r' || c == '\U{000B}' || c == '\U{000C}'
  }

  function DropSpaces(s: string): (r: string)
    ensures |r| <= |s| && r == s[|s| - |r|..]
    ensures r == [] || !IsSpace(r[0])
    ensures forall i :: 0 <= i < |s| - |r| ==> IsSpace(s[i])
  {
    if s != [] && IsSpace(s[0]) then DropSpaces(s[1..]) else s
  }

  /** `s.replace(/^word\s+/, '')`: removes `word` and the run of white space
      after it, but only when at least one white-space character follows. */
  function StripWord(s: string, word: string): (r: string)
    ensures |r| <= |s| && r == s[|s| - |r|..]
    ensures r != s <==> StartsWith(s, word) && |s| > |word| && IsSpace(s[|word|])
    ensures r != s ==> r == DropSpaces(s[|word|..])
  {
    if StartsWith(s, word) && |s| > |word| && IsSpace(s[|word|])
    then DropSpaces(s[|word|..])
    else s
  }

  /** A word followed by one blank and then a non-blank is stripped with the blank. */
  lemma StripWordSpace(w: string, rest: string)
    requires rest != [] && !IsSpace(rest[0])
    ensures StripWord(w + " " + rest, w) == rest
  {
    var s := w + " " + rest;
    assert s[..|w|] == w && s[|w|] == ' ';
    assert s[|w|..] == " " + rest && (" " + rest)[1..] == rest;
  }

  /** Two words, each followed by one blank, stripped in turn. */
  lemma StripTwoWords(first: string, second: string, rest: string)
    requires second != [] && !IsSpace(second[0])
    requires rest != [] && !IsSpace(rest[0])
    ensures StripWord(StripWord(first + " " + second + " " + rest, first), second) == rest
  {
    assert first + " " + second + " " + rest == first + " " + (second + " " + rest);
    StripWordSpace(first, second + " " + rest);
    StripWordSpace(second, rest);
  }

  /** A suffix of a suffix is a suffix. */
  lemma EndsWithTrans(s: string, t: string, u: string)
    requires EndsWith(s, t) && EndsWith(t, u)
    ensures EndsWith(s, u)
  {
    forall i | 0 <= i < |u| ensures s[|s| - |u| + i] == u[i] {
      assert s[|s| - |t| + (|t| - |u| + i)] == t[|t| - |u| + i];
    }
  }
}

=== FILE: tests.dfy ===
/** The tests stage: appends a method-specific test script to each request. */
module Tests {
  import opened Wrappers
  import opened Records
  import opened Types
  import opened Walker

  const GetTemplate: seq<string> := [
    "pm.test(\"Status code is 200\", () => {",
    "    pm.response.to.have.status(200);",
    "});",
    "",
    "pm.test(\"Response time is less than 1000ms\", () => {",
    "    pm.expect(pm.response.responseTime).to.be.below(1000);",
    "});"
  ]

  const PostTemplate: seq<string> := [
    "pm.test(\"Successful creation\", () => {",
    "    pm.expect(pm.response.code).to.be.oneOf([200, 201]);",
    "});",
    "",
    "pm.test(\"Response has data\", () => {",
    "    const jsonData = pm.response.json();",
    "    pm.expect(jsonData).to.be.an(\"object\");",
    "});"
  ]

  const PutTemplate: seq<string> := [
    "pm.test(\"Successful update\", () => {",
    "    pm.expect(pm.response.code).to.be.oneOf([200, 204]);",
    "});"
  ]

  const PatchTemplate: seq<string> := [
    "pm.test(\"Successful partial update\", () => {",
    "    pm.expect(pm.response.code).to.be.oneOf([200, 204]);",
    "});",
    "",
    "pm.test(\"Response has updated data\", () => {",
    "    if (pm.response.code === 200) {",
    "        const jsonData = pm.response.json();",
    "        pm.expect(jsonData).to.be.an(\"object\");",
    "    }",
    "});"
  ]

  const DeleteTemplate: seq<string> := [
    "pm.test(\"Successful deletion\", () => {",
    "    pm.response.to.have.status(204);",
    "});"
  ]

  /** `getTestTemplate`'s table, in declaration order. */
  const Templates: Record<seq<string>> :=
    [("GET", GetTemplate), ("POST", PostTemplate), ("PUT", PutTemplate), ("PATCH", PatchTemplate), ("DELETE", DeleteTemplate)]

  /** The template for a method: one of the five listed methods, matched
      case-sensitively, or none. */
  function TestTemplate(verb: string): (r: Option<seq<string>>)
    ensures r.Some? <==> verb in {"GET", "POST", "PUT", "PATCH", "DELETE"}
    ensures verb == "GET" ==> r == Some(GetTemplate) && |r.value| == 7
    ensures verb == "DELETE" ==> r == Some(DeleteTemplate) && |r.value| == 3
    ensures r.Some? ==> |r.value| > 0
  {
    assert Keys(Templates) == ["GET", "POST", "PUT", "PATCH", "DELETE"];
    Lookup(Templates, verb)
  }

  /** The event a template becomes. */
  function TestEvent(template: seq<string>): Event {
    Event("test", Script("text/javascript", template))
  }

  /** The handler: a request with a template gets exactly one event more,
      at the end; everything else is left as it is. */
  function TestHandler(it: Item): (r: Item)
    ensures !IsRequest(it) || TestTemplate(GetRequestMethod(it)).None? ==> r == it
    ensures IsRequest(it) && TestTemplate(GetRequestMethod(it)).Some? ==>
      && r.(event := None) == it.(event := None)
      && r.event.Some?
      && |r.event.value| == |it.event.GetOr([])| + 1
      && r.event.value[..|r.event.value| - 1] == it.event.GetOr([])
      && r.event.value[|r.event.value| - 1] == TestEvent(TestTemplate(GetRequestMethod(it)).value)
  {
    if IsRequest(it) then
      match TestTemplate(GetRequestMethod(it))
      case None => it
      case Some(template) =>
        var events := it.event.GetOr([]) + [TestEvent(template)];
        assert events[..|events| - 1] == it.event.GetOr([]);
        it.(event := Some(events))
    else it
  }

  /** `addTests`. */
  function AddTests(c: Collection, config: Option<TestConfig>): (r: Collection)
    ensures config.None? || config.value.auto != Some(true) ==> r == c
    ensures r.info == c.info && r.variable == c.variable && r.event == c.event
  {
    if config.Some? && config.value.auto == Some(true) then c.(item := MapTree(c.item, TestHandler))
    else c
  }

  /** Position by position over the walk: folders and other non-requests,
      and requests whose method has no template, are untouched; every other
      request keeps its events in order and gains its test event last. */
  lemma TestsEffect(c: Collection)
    ensures var w, w' := Walk(c.item), Walk(AddTests(c, Some(TestConfig(Some(true)))).item);
      && |w'| == |w|
      && (forall i :: 0 <= i < |w| ==> Strip(w'[i]).(event := None) == Strip(w[i]).(event := None))
      && (forall i :: 0 <= i < |w| && (!IsRequest(w[i]) || TestTemplate(GetRequestMethod(w[i])).None?) ==>
            Strip(w'[i]) == Strip(w[i]))
      && (forall i :: 0 <= i < |w| && IsRequest(w[i]) && TestTemplate(GetRequestMethod(w[i])).Some? ==>
            w'[i].event == Some(w[i].event.GetOr([]) + [TestEvent(TestTemplate(GetRequestMethod(w[i])).value)]))
  {
    MapTreeVisits(c.item, TestHandler);
    var w, w' := Walk(c.item), Walk(AddTests(c, Some(TestConfig(Some(true)))).item);
    forall i | 0 <= i < |w| && IsRequest(w[i]) && TestTemplate(GetRequestMethod(w[i])).Some?
      ensures w'[i].event == Some(w[i].event.GetOr([]) + [TestEvent(TestTemplate(GetRequestMethod(w[i])).value)])
    {
      var e := TestHandler(w[i]).event.value;
      assert e == e[..|e| - 1] + [e[|e| - 1]];
      assert Strip(w'[i]) == Strip(TestHandler(w[i]));
    }
  }

  lemma TestsKeepEndpoints(c: Collection, config: Option<TestConfig>)
    ensures SameEndpoints(c.item, AddTests(c, config).item)
  {
    if config.Some? && config.value.auto == Some(true) {
      MapTreeKeepsEndpoints(c.item, TestHandler);
    } else {
      assert forall i :: 0 <= i < |Walk(c.item)| ==> Endpoint(Walk(c.item)[i]) == Endpoint(Walk(c.item)[i]);
    }
  }
}

=== FILE: types.dfy ===
/** The Postman collection document and the enrichment configuration, field
    for field as the shared package declares them. An optional field is an
    `Option`; a field that may be a string or an array is `StringOrList`; a
    dictionary is a `Record` (entries in iteration order). */
module Types {
  import opened Wrappers
  import opened Records
  import opened Json

  /** A description: either a plain string or a `{content, type}` pair. */
  datatype Description = Plain(text: string) | Rich(content: string, kind: string)

  datatype StringOrList = Str(s: string) | List(items: seq<string>)

  datatype QueryParam = QueryParam(
    key: string,
    value: string,
    disabled: Option<bool>,
    description: Option<Description>)

  datatype Variable = Variable(
    key: string,
    value: string,
    kind: Option<string>,
    disabled: Option<bool>,
    description: Option<Description>)

  datatype Header = Header(key: string, value: string)

  /** A URL is either a bare string or a structured object. */
  datatype Url =
    | UrlString(text: string)
    | UrlObject(
        raw: Option<string>,
        protocol: Option<string>,
        host: Option<StringOrList>,
        path: Option<StringOrList>,
        query: Option<seq<QueryParam>>,
        variable: Option<seq<Variable>>)

  datatype Body = Body(mode: string, raw: Option<string>)

  /** `verb` is the `method` field and `allow` below is `include`; both
      names are reserved words in Dafny. */
  datatype Request = Request(
    verb: string,
    url: Option<Url>,
    description: Option<Description>,
    header: Option<seq<Header>>,
    body: Option<Body>)

  datatype Response = Response(
    id: Option<string>,
    name: string,
    status: string,
    code: int,
    header: Option<seq<Header>>,
    body: Option<string>,
    previewLanguage: Option<string>)

  datatype Script = Script(kind: string, exec: seq<string>)

  datatype Event = Event(listen: string, script: Script)

  /** An item's optional `item` array. (A dedicated type rather than an
      `Option` so that recursion through it is well founded.) */
  datatype Children = NoItems | Items(items: seq<Item>)

  /** A node of the item tree: a folder carries `children` (the `item`
      array), a request carries `request`. */
  datatype Item = Item(
    id: Option<string>,
    name: string,
    description: Option<Description>,
    children: Children,
    request: Option<Request>,
    response: Option<seq<Response>>,
    event: Option<seq<Event>>)

  datatype Info = Info(
    name: string,
    description: Option<Description>,
    schema: string,
    postmanId: Option<string>)

  datatype Collection = Collection(
    info: Info,
    item: seq<Item>,
    variable: Option<seq<Variable>>,
    event: Option<seq<Event>>)

  /** JavaScript truthiness of an optional string. */
  predicate NonEmpty(s: Option<string>) {
    s.Some? && s.value != ""
  }

  /** JavaScript truthiness of an optional description. */
  predicate HasDescription(d: Option<Description>) {
    d.Some? && (d.value.Rich? || d.value.text != "")
  }

  /** A request's `url` is truthy: present, and not the empty string. */
  predicate HasUrl(r: Request) {
    r.url.Some? && !(r.url.value.UrlString? && r.url.value.text == "")
  }

  // Configuration, one section per stage.

  datatype FilterConfig = FilterConfig(
    allow: Option<Record<bool>>,
    note: Option<string>,
    normalizationRules: Option<Record<string>>)

  datatype CollectionText = CollectionText(name: Option<string>, description: Option<string>)

  datatype DescriptionConfig = DescriptionConfig(
    collection: Option<Record<CollectionText>>,
    folders: Option<Record<string>>,
    requests: Option<Record<string>>)

  datatype ExampleResponse = ExampleResponse(name: string, status: string, code: int, body: Option<Json>)

  datatype RequestExample = RequestExample(body: Option<Json>)

  datatype ExampleConfig = ExampleConfig(
    requests: Option<Record<RequestExample>>,
    responses: Option<Record<ExampleResponse>>)

  datatype VariableConfig = VariableConfig(
    path: Option<Record<string>>,
    query: Option<Record<string>>,
    environment: Option<Record<string>>,
    descriptions: Option<Record<string>>,
    baseUrlVar: Option<string>)

  datatype TestConfig = TestConfig(auto: Option<bool>)

  datatype OrganizeConfig = OrganizeConfig(
    enabled: bool,
    strategy: Option<string>,
    nestingLevel: Option<int>,
    excludePathParams: Option<bool>)

  datatype PathMapping = PathMapping(reference: string, description: Option<string>)

  datatype PathVariablesConfig = PathVariablesConfig(enabled: bool, mapping: Option<Record<PathMapping>>)

  datatype EnrichmentConfig = EnrichmentConfig(
    filter: Option<FilterConfig>,
    descriptions: Option<DescriptionConfig>,
    examples: Option<ExampleConfig>,
    variables: Option<VariableConfig>,
    tests: Option<TestConfig>,
    organize: Option<OrganizeConfig>,
    pathVariables: Option<PathVariablesConfig>)
}

=== FILE: variables.dfy ===
/** The variables stage: clears the collection variables, fills in URL path
    variables, points every host at the base-URL variable, sets configured
    query values and adds an environment-check pre-request script. */
module Variables {
  import opened Wrappers
  import opened Records
  import opened Types
  import opened Walker

  // Keyed lists: `findIndex(v => v.key === key)`.

  function FindVariable(vars: seq<Variable>, key: string): (r: int)
    ensures -1 <= r < |vars|
    ensures r == -1 <==> forall j :: 0 <= j < |vars| ==> vars[j].key != key
    ensures r >= 0 ==> vars[r].key == key && forall j :: 0 <= j < r ==> vars[j].key != key
  {
    if vars == [] then -1
    else if vars[0].key == key then 0
    else
      var r := FindVariable(vars[1..], key);
      if r == -1 then -1 else r + 1
  }

  function FindParam(query: seq<QueryParam>, key: string): (r: int)
    ensures -1 <= r < |query|
    ensures r == -1 <==> forall j :: 0 <= j < |query| ==> query[j].key != key
    ensures r >= 0 ==> query[r].key == key && forall j :: 0 <= j < r ==> query[j].key != key
  {
    if query == [] then -1
    else if query[0].key == key then 0
    else
      var r := FindParam(query[1..], key);
      if r == -1 then -1 else r + 1
  }

  /** A list that keeps the keys of `vars` at its first positions finds
      every key of `vars` where `vars` does. */
  lemma FindVariableKeys(vars: seq<Variable>, r: seq<Variable>, key: string)
    requires |r| >= |vars| && forall j :: 0 <= j < |vars| ==> r[j].key == vars[j].key
    requires FindVariable(vars, key) >= 0
    ensures FindVariable(r, key) == FindVariable(vars, key)
  {
    var i := FindVariable(vars, key);
    assert r[i].key == key;
  }

  lemma FindParamKeys(query: seq<QueryParam>, r: seq<QueryParam>, key: string)
    requires |r| == |query| && forall j :: 0 <= j < |query| ==> r[j].key == query[j].key
    ensures FindParam(r, key) == FindParam(query, key)
  {
    if FindParam(query, key) >= 0 {
      assert r[FindParam(query, key)].key == key;
    }
  }

  // Step 2: path variables.

  /** `url.variable[i] = variable` at the first entry with the same key, or
      `url.variable.push(variable)`. */
  function UpsertVariable(vars: seq<Variable>, v: Variable): (r: seq<Variable>)
    ensures |r| == |vars| + (if FindVariable(vars, v.key) >= 0 then 0 else 1)
    ensures forall j :: 0 <= j < |vars| ==> r[j].key == vars[j].key
    ensures FindVariable(r, v.key) >= 0 && r[FindVariable(r, v.key)] == v
    ensures forall j :: 0 <= j < |vars| && j != FindVariable(vars, v.key) ==> r[j] == vars[j]
    ensures forall k :: k != v.key ==> FindVariable(r, k) == FindVariable(vars, k)
  {
    var i := FindVariable(vars, v.key);
    var r := if i >= 0 then vars[i := v] else vars + [v];
    UpsertFindsNew(vars, v, i, r);
    forall k | k != v.key ensures FindVariable(r, k) == FindVariable(vars, k) {
      UpsertFindsOthers(vars, v, i, r, k);
    }
    r
  }

  lemma UpsertFindsNew(vars: seq<Variable>, v: Variable, i: int, r: seq<Variable>)
    requires i == FindVariable(vars, v.key)
    requires r == if i >= 0 then vars[i := v] else vars + [v]
    ensures FindVariable(r, v.key) == (if i >= 0 then i else |vars|)
  {
    assert r[if i >= 0 then i else |vars|] == v;
  }

  lemma UpsertFindsOthers(vars: seq<Variable>, v: Variable, i: int, r: seq<Variable>, k: string)
    requires i == FindVariable(vars, v.key)
    requires r == if i >= 0 then vars[i := v] else vars + [v]
    requires k != v.key
    ensures FindVariable(r, k) == FindVariable(vars, k)
  {
    if FindVariable(vars, k) >= 0 {
      FindVariableKeys(vars, r, k);
    }
  }

  /** The description text of a path variable: the configured one when
      non-empty, else "". */
  function DescriptionFor(descriptions: Option<Record<string>>, name: string): string {
    match descriptions
    case None => ""
    case Some(d) => if NonEmpty(Lookup(d, name)) then Lookup(d, name).value else ""
  }

  function NewPathVariable(name: string, value: string, descriptions: Option<Record<string>>): Variable {
    Variable(name, value, None, None, Some(Plain(DescriptionFor(descriptions, name))))
  }

  /** The configured path variables, in order, each upserted when the path
      has a `:name` segment. */
  function PathVariables(entries: Record<string>, segs: seq<string>, descriptions: Option<Record<string>>,
                         vars: seq<Variable>): seq<Variable>
    decreases |entries|
  {
    if entries == [] then vars
    else
      PathVariables(entries[1..], segs, descriptions, FirstUpsert(entries, segs, descriptions, vars))
  }

  /** A configured variable the path names. */
  predicate Wanted(entries: Record<string>, segs: seq<string>, k: string) {
    k in Keys(entries) && ":" + k in segs
  }

  /** The first entries of `r` keep the keys of `vars`. */
  ghost predicate KeepsKeys(vars: seq<Variable>, r: seq<Variable>) {
    |r| >= |vars| && forall j :: 0 <= j < |vars| ==> r[j].key == vars[j].key
  }

  /** Every wanted variable sits, with its configured value and
      description, at the first entry with its key. */
  ghost predicate SetsWanted(entries: Record<string>, segs: seq<string>, descriptions: Option<Record<string>>,
                             r: seq<Variable>) {
    forall k :: Wanted(entries, segs, k) ==>
      FindVariable(r, k) >= 0 && r[FindVariable(r, k)] == NewPathVariable(k, Lookup(entries, k).value, descriptions)
  }

  /** Keys nobody wants are found where they were. */
  ghost predicate FindsUnwanted(entries: Record<string>, segs: seq<string>, vars: seq<Variable>, r: seq<Variable>) {
    forall k :: !Wanted(entries, segs, k) ==> FindVariable(r, k) == FindVariable(vars, k)
  }

  /** Every entry no wanted variable overwrites is untouched. */
  ghost predicate KeepsOthers(entries: Record<string>, segs: seq<string>, vars: seq<Variable>, r: seq<Variable>)
    requires |r| >= |vars|
  {
    forall j :: 0 <= j < |vars| && !(Wanted(entries, segs, vars[j].key) && FindVariable(vars, vars[j].key) == j) ==>
      r[j] == vars[j]
  }

  /** Every entry past the original list is a wanted variable that was
      missing before and is the first with its key: each missing variable
      is appended once, and nothing else is. */
  ghost predicate AppendsMissing(entries: Record<string>, segs: seq<string>, vars: seq<Variable>, r: seq<Variable>) {
    forall j :: |vars| <= j < |r| ==>
      Wanted(entries, segs, r[j].key) && FindVariable(vars, r[j].key) == -1 && FindVariable(r, r[j].key) == j
  }

  /** The variable list after the first configured entry. */
  function FirstUpsert(entries: Record<string>, segs: seq<string>, descriptions: Option<Record<string>>,
                       vars: seq<Variable>): seq<Variable>
    requires entries != []
  {
    if ":" + entries[0].0 in segs then UpsertVariable(vars, NewPathVariable(entries[0].0, entries[0].1, descriptions))
    else vars
  }

  /** Upsert semantics of step 2: every wanted variable sits, with its
      configured value and description, at the first entry with its key;
      the first entries keep their keys; every entry that no wanted
      variable overwrites is untouched; the entries past the original list
      are the wanted variables that were missing, each once. */
  lemma {:induction false} PathVariablesEffect(entries: Record<string>, segs: seq<string>,
                                               descriptions: Option<Record<string>>, vars: seq<Variable>)
    requires UniqueKeys(entries)
    ensures var r := PathVariables(entries, segs, descriptions, vars);
      && KeepsKeys(vars, r)
      && SetsWanted(entries, segs, descriptions, r)
      && FindsUnwanted(entries, segs, vars, r)
      && KeepsOthers(entries, segs, vars, r)
      && AppendsMissing(entries, segs, vars, r)
    decreases |entries|
  {
    if entries != [] {
      var rest := entries[1..];
      var vars' := FirstUpsert(entries, segs, descriptions, vars);
      UniqueKeysTail(entries);
      PathVariablesEffect(rest, segs, descriptions, vars');
      var r := PathVariables(entries, segs, descriptions, vars);
      assert r == PathVariables(rest, segs, descriptions, vars');
      assert Keys(entries) == [entries[0].0] + Keys(rest);
      forall k | Wanted(entries, segs, k)
        ensures FindVariable(r, k) >= 0 && r[FindVariable(r, k)] == NewPathVariable(k, Lookup(entries, k).value, descriptions)
      {
        SetsWantedStep(entries, segs, descriptions, vars, vars', r, k);
      }
      FindsUnwantedStep(entries, segs, descriptions, vars, r);
      KeepsOthersStep(entries, segs, descriptions, vars, vars', r);
      AppendsMissingStep(entries, segs, descriptions, vars, vars', r);
    }
  }

  lemma {:induction false} AppendsMissingStep(entries: Record<string>, segs: seq<string>, descriptions: Option<Record<string>>,
                           vars: seq<Variable>, vars': seq<Variable>, r: seq<Variable>)
    requires entries != [] && entries[0].0 !in Keys(entries[1..])
    requires Keys(entries) == [entries[0].0] + Keys(entries[1..])
    requires vars' == FirstUpsert(entries, segs, descriptions, vars)
    requires KeepsKeys(vars', r) && FindsUnwanted(entries[1..], segs, vars', r)
    requires AppendsMissing(entries[1..], segs, vars', r)
    ensures AppendsMissing(entries, segs, vars, r)
  {
    assert KeepsKeys(vars, vars');
    forall j | |vars| <= j < |r|
      ensures Wanted(entries, segs, r[j].key) && FindVariable(vars, r[j].key) == -1 && FindVariable(r, r[j].key) == j
    {
      var key := r[j].key;
      if j >= |vars'| {
        FindVariableMissing(vars, vars', key);
      } else {
        var k := entries[0].0;
        assert |vars'| == |vars| + 1 && vars'[j].key == k;
        assert !Wanted(entries[1..], segs, k);
        assert FindVariable(vars', k) == j;
      }
    }
  }

  /** A key missing from a list that keeps the keys of `vars` is missing
      from `vars`. */
  lemma FindVariableMissing(vars: seq<Variable>, r: seq<Variable>, key: string)
    requires KeepsKeys(vars, r) && FindVariable(r, key) == -1
    ensures FindVariable(vars, key) == -1
  {
    forall j | 0 <= j < |vars| ensures vars[j].key != key {
      assert r[j].key == vars[j].key;
    }
  }

  lemma SetsWantedStep(entries: Record<string>, segs: seq<string>, descriptions: Option<Record<string>>,
                       vars: seq<Variable>, vars': seq<Variable>, r: seq<Variable>, k: string)
    requires entries != [] && entries[0].0 !in Keys(entries[1..])
    requires Keys(entries) == [entries[0].0] + Keys(entries[1..])
    requires vars' == FirstUpsert(entries, segs, descriptions, vars)
    requires KeepsKeys(vars', r) && SetsWanted(entries[1..], segs, descriptions, r) && KeepsOthers(entries[1..], segs, vars', r)
    requires Wanted(entries, segs, k)
    ensures FindVariable(r, k) >= 0 && r[FindVariable(r, k)] == NewPathVariable(k, Lookup(entries, k).value, descriptions)
  {
    if k == entries[0].0 {
      assert !Wanted(entries[1..], segs, k);
      var i := FindVariable(vars', k);
      assert vars'[i].key == k;
      FindVariableKeys(vars', r, k);
    } else {
      assert Wanted(entries[1..], segs, k);
    }
  }

  lemma FindsUnwantedStep(entries: Record<string>, segs: seq<string>, descriptions: Option<Record<string>>,
                          vars: seq<Variable>, r: seq<Variable>)
    requires entries != []
    requires Keys(entries) == [entries[0].0] + Keys(entries[1..])
    requires FindsUnwanted(entries[1..], segs, FirstUpsert(entries, segs, descriptions, vars), r)
    ensures FindsUnwanted(entries, segs, vars, r)
  {
    forall k | !Wanted(entries, segs, k) ensures FindVariable(r, k) == FindVariable(vars, k) {
      assert !Wanted(entries[1..], segs, k);
    }
  }

  lemma KeepsOthersStep(entries: Record<string>, segs: seq<string>, descriptions: Option<Record<string>>,
                        vars: seq<Variable>, vars': seq<Variable>, r: seq<Variable>)
    requires entries != [] && entries[0].0 !in Keys(entries[1..])
    requires Keys(entries) == [entries[0].0] + Keys(entries[1..])
    requires vars' == FirstUpsert(entries, segs, descriptions, vars)
    requires KeepsKeys(vars', r) && KeepsOthers(entries[1..], segs, vars', r)
    ensures KeepsOthers(entries, segs, vars, r)
  {
    forall j | 0 <= j < |vars| && !(Wanted(entries, segs, vars[j].key) && FindVariable(vars, vars[j].key) == j)
      ensures r[j] == vars[j]
    {
      var key := vars[j].key;
      assert vars'[j] == vars[j];
      if Wanted(entries[1..], segs, key) {
        assert key != entries[0].0;
        assert FindVariable(vars', key) == FindVariable(vars, key);
      }
    }
  }

  /** The path-variable handler: a request with an array path gets a
      variable list (initialised to [] when absent) with the configured
      variables it names upserted; anything else is left as it is. */
  function PathHandler(entries: Record<string>, descriptions: Option<Record<string>>, it: Item): (r: Item)
    ensures !HasArrayPath(it) ==> r == it
    ensures HasArrayPath(it) ==>
      var req, u := it.request.value, it.request.value.url.value;
      && HasArrayPath(r) && r.(request := it.request) == it
      && r.request.value.(url := req.url) == req
      && r.request.value.url.value.(variable := u.variable) == u
      && r.request.value.url.value.variable == Some(PathVariables(entries, u.path.value.items, descriptions, u.variable.GetOr([])))
  {
    if HasArrayPath(it) then
      var req := it.request.value;
      var u := req.url.value;
      var vars := PathVariables(entries, u.path.value.items, descriptions, u.variable.GetOr([]));
      it.(request := Some(req.(url := Some(u.(variable := Some(vars))))))
    else it
  }

  /** A request whose URL is an object with an array `path`. */
  predicate HasArrayPath(it: Item) {
    IsRequest(it) && it.request.value.url.Some? && it.request.value.url.value.UrlObject?
    && it.request.value.url.value.path.Some? && it.request.value.url.value.path.value.List?
  }

  // Step 3: hosts.

  /** A request whose URL is a non-empty string: setting `host` on it
      throws a TypeError (module code is strict). */
  predicate StringUrl(it: Item) {
    IsRequest(it) && it.request.value.url.Some? && it.request.value.url.value.UrlString?
    && it.request.value.url.value.text != ""
  }

  /** Some walked request has a non-empty string URL. */
  predicate HostFails(items: seq<Item>) {
    exists i :: 0 <= i < |Walk(items)| && StringUrl(Walk(items)[i])
  }

  const HostError := "TypeError: Cannot create property 'host' on string"

  function HostHandler(base: string, it: Item): (r: Item)
    ensures IsRequest(it) && it.request.value.url.Some? && it.request.value.url.value.UrlObject? ==>
      var req, u := it.request.value, it.request.value.url.value;
      && IsRequest(r) && r.(request := it.request) == it
      && r.request.value.url.Some? && r.request.value.(url := req.url) == req
      && r.request.value.url.value.UrlObject? && r.request.value.url.value.(host := u.host) == u
      && r.request.value.url.value.host == Some(List(["{{" + base + "}}"]))
    ensures !(IsRequest(it) && it.request.value.url.Some? && it.request.value.url.value.UrlObject?) ==> r == it
  {
    if IsRequest(it) && it.request.value.url.Some? && it.request.value.url.value.UrlObject? then
      var req := it.request.value;
      it.(request := Some(req.(url := Some(req.url.value.(host := Some(List(["{{" + base + "}}"])))))))
    else it
  }

  // Step 4: query values.

  /** The parameter written for a configured query value: key and value,
      enabled, and the old description only when it was truthy. */
  function UpdatedParam(p: QueryParam, value: string): QueryParam {
    QueryParam(p.key, value, Some(false), if HasDescription(p.description) then p.description else None)
  }

  /** The first parameter with the key takes the value; there is no insert. */
  function SetParam(query: seq<QueryParam>, key: string, value: string): (r: seq<QueryParam>)
    ensures |r| == |query|
    ensures forall j :: 0 <= j < |query| ==> r[j].key == query[j].key
    ensures forall j :: 0 <= j < |query| && j != FindParam(query, key) ==> r[j] == query[j]
    ensures FindParam(query, key) >= 0 ==> r[FindParam(query, key)] == UpdatedParam(query[FindParam(query, key)], value)
  {
    var i := FindParam(query, key);
    if i >= 0 then query[i := UpdatedParam(query[i], value)] else query
  }

  function QueryParams(entries: Record<string>, query: seq<QueryParam>): seq<QueryParam>
    decreases |entries|
  {
    if entries == [] then query
    else QueryParams(entries[1..], SetParam(query, entries[0].0, entries[0].1))
  }

  /** Step 4 on one list: same length and keys; the first parameter of each
      configured key takes its value, every other parameter is untouched. */
  lemma {:induction false} QueryParamsEffect(entries: Record<string>, query: seq<QueryParam>)
    requires UniqueKeys(entries)
    ensures var r := QueryParams(entries, query);
      && |r| == |query|
      && forall j :: 0 <= j < |query| ==>
           r[j] == (if query[j].key in Keys(entries) && FindParam(query, query[j].key) == j
                    then UpdatedParam(query[j], Lookup(entries, query[j].key).value)
                    else query[j])
    decreases |entries|
  {
    if entries != [] {
      var name := entries[0].0;
      var rest := entries[1..];
      var q' := SetParam(query, name, entries[0].1);
      UniqueKeysTail(entries);
      QueryParamsEffect(rest, q');
      assert Keys(entries) == [name] + Keys(rest);
      var r := QueryParams(entries, query);
      forall j | 0 <= j < |query|
        ensures r[j] == (if query[j].key in Keys(entries) && FindParam(query, query[j].key) == j
                         then UpdatedParam(query[j], Lookup(entries, query[j].key).value)
                         else query[j])
      {
        FindParamKeys(query, q', query[j].key);
      }
    }
  }

  function QueryHandler(entries: Record<string>, it: Item): (r: Item)
    ensures !HasQuery(it) ==> r == it
    ensures HasQuery(it) ==>
      var req, u := it.request.value, it.request.value.url.value;
      && HasQuery(r) && r.(request := it.request) == it
      && r.request.value.(url := req.url) == req
      && r.request.value.url.value.(query := u.query) == u
      && r.request.value.url.value.query == Some(QueryParams(entries, u.query.value))
  {
    if HasQuery(it) then
      var req := it.request.value;
      var u := req.url.value;
      it.(request := Some(req.(url := Some(u.(query := Some(QueryParams(entries, u.query.value)))))))
    else it
  }

  /** A request whose URL object has a `query` list. */
  predicate HasQuery(it: Item) {
    IsRequest(it) && it.request.value.url.Some? && it.request.value.url.value.UrlObject?
    && it.request.value.url.value.query.Some?
  }

  // Step 5: the environment check script.

  function CheckLines(name: string): string {
    "if (!pm.environment.get(\"" + name + "\")) {\n    console.warn(\"Please set your " + name + " in the environment\");\n}"
  }

  const ValidateComment := "// Validate required environment variables"
  const TimestampLine := "pm.globals.set(\"timestamp\", new Date().toISOString());"

  /** The pre-request script: a comment, one check per environment key in
      order, a blank line, a comment and the timestamp line. */
  function EnvScript(names: seq<string>): (r: seq<string>)
    ensures |r| == |names| + 4
    ensures r[0] == ValidateComment && r[|r| - 1] == TimestampLine
    ensures forall i :: 0 <= i < |names| ==> r[i + 1] == CheckLines(names[i])
  {
    [ValidateComment] + seq(|names|, i requires 0 <= i < |names| => CheckLines(names[i]))
    + ["", "// Save timestamp for chaining requests", TimestampLine]
  }

  function EnvEvent(names: seq<string>): Event {
    Event("prerequest", Script("text/javascript", EnvScript(names)))
  }

  // The stage.

  function BaseVariable(config: VariableConfig): string {
    if NonEmpty(config.baseUrlVar) then config.baseUrlVar.value else "baseUrl"
  }

  function EnvironmentKeys(config: VariableConfig): seq<string> {
    match config.environment
    case None => []
    case Some(env) => Keys(env)
  }

  /** What step 2 does to one item (nothing when `path` is not configured). */
  function PathStepOf(config: VariableConfig, it: Item): Item {
    match config.path
    case None => it
    case Some(p) => PathHandler(p, config.descriptions, it)
  }

  function QueryStepOf(config: VariableConfig, it: Item): Item {
    match config.query
    case None => it
    case Some(q) => QueryHandler(q, it)
  }

  /** What the whole stage does to one visited item. */
  function VariablesOf(config: VariableConfig, it: Item): Item {
    QueryStepOf(config, HostHandler(BaseVariable(config), PathStepOf(config, it)))
  }

  // The three walks' handlers. An unconfigured step is a walk whose handler
  // changes nothing, which leaves the tree as it is (Walker.MapTreeIdentity).

  function PathFn(config: VariableConfig): Item -> Item {
    it => PathStepOf(config, it)
  }

  function HostFn(config: VariableConfig): Item -> Item {
    it => HostHandler(BaseVariable(config), it)
  }

  function QueryFn(config: VariableConfig): Item -> Item {
    it => QueryStepOf(config, it)
  }

  /** Steps 2 and 3 on one item. */
  function PathHostFn(config: VariableConfig): Item -> Item {
    it => HostHandler(BaseVariable(config), PathStepOf(config, it))
  }

  /** `setupVariables`, failing where the source throws. */
  function SetupVariables(c: Collection, config: Option<VariableConfig>): (r: Result<Collection, string>)
    ensures config.None? ==> r == Success(c)
    ensures config.Some? && r.Success? ==> r.value.variable == Some([]) && r.value.info == c.info
    ensures r.Failure? ==> r.error == HostError
    ensures config.Some? && r.Success? && |EnvironmentKeys(config.value)| > 0 ==>
      r.value.event == Some(c.event.GetOr([]) + [EnvEvent(EnvironmentKeys(config.value))])
    ensures config.Some? && r.Success? && |EnvironmentKeys(config.value)| == 0 ==> r.value.event == c.event
  {
    match config
    case None => Success(c)
    case Some(cfg) =>
      var items := MapTree(c.item, PathFn(cfg));
      if HostFails(items) then Failure(HostError)
      else
        var items := MapTree(MapTree(items, HostFn(cfg)), QueryFn(cfg));
        var names := EnvironmentKeys(cfg);
        var event := if |names| > 0 then Some(c.event.GetOr([]) + [EnvEvent(names)]) else c.event;
        Success(c.(variable := Some([]), item := items, event := event))
  }

  /** The stage fails exactly when some visited request has a non-empty
      string URL. */
  lemma VariablesFailure(c: Collection, config: VariableConfig)
    ensures SetupVariables(c, Some(config)).Failure? <==>
      exists i :: 0 <= i < |Walk(c.item)| && StringUrl(Walk(c.item)[i])
  {
    var items := MapTree(c.item, PathFn(config));
    MapTreeVisits(c.item, PathFn(config));
    forall i | 0 <= i < |Walk(c.item)| ensures StringUrl(Walk(items)[i]) <==> StringUrl(Walk(c.item)[i]) {
      assert StringUrl(Walk(items)[i]) <==> StringUrl(Strip(Walk(items)[i]));
    }
  }

  /** The tree after steps 2 and 3, position by position. */
  lemma PathHostVisits(c: Collection, config: VariableConfig)
    ensures var w, w' := Walk(c.item), Walk(MapTree(MapTree(c.item, PathFn(config)), HostFn(config)));
      && |w'| == |w|
      && forall i :: 0 <= i < |w| ==> Strip(w'[i]) == Strip(PathHostFn(config)(w[i]))
  {
    MapTreeVisits(c.item, PathFn(config));
    assert IgnoresChildren(HostFn(config));
    MapTreeThen(c.item, MapTree(c.item, PathFn(config)), PathFn(config), HostFn(config));
  }

  /** A successful stage's tree is the three walks in a row. */
  lemma SetupVariablesItems(c: Collection, config: VariableConfig)
    requires SetupVariables(c, Some(config)).Success?
    ensures SetupVariables(c, Some(config)).value.item
         == MapTree(MapTree(MapTree(c.item, PathFn(config)), HostFn(config)), QueryFn(config))
  {
  }

  /** Position by position over the walk, the successful stage applies the
      path, host and query steps to each visited item. */
  lemma VariablesVisits(c: Collection, config: VariableConfig)
    requires SetupVariables(c, Some(config)).Success?
    ensures var w, w' := Walk(c.item), Walk(SetupVariables(c, Some(config)).value.item);
      && |w'| == |w|
      && forall i :: 0 <= i < |w| ==> Strip(w'[i]) == Strip(VariablesOf(config, w[i]))
  {
    var h := MapTree(MapTree(c.item, PathFn(config)), HostFn(config));
    SetupVariablesItems(c, config);
    PathHostVisits(c, config);
    assert IgnoresChildren(QueryFn(config));
    MapTreeThen(c.item, h, PathHostFn(config), QueryFn(config));
  }

  /** Folders and other non-requests are untouched, and every request with
      a URL ends with the base-URL variable as its host. */
  lemma VariablesEffect(c: Collection, config: VariableConfig)
    requires SetupVariables(c, Some(config)).Success?
    ensures var w, w' := Walk(c.item), Walk(SetupVariables(c, Some(config)).value.item);
      && |w'| == |w|
      && (forall i :: 0 <= i < |w| && !IsRequest(w[i]) ==> Strip(w'[i]) == Strip(w[i]))
      && (forall i :: 0 <= i < |w| && IsRequest(w[i]) && HasUrl(w[i].request.value) ==>
            IsRequest(w'[i]) && w'[i].request.value.url.Some? && w'[i].request.value.url.value.UrlObject?
            && w'[i].request.value.url.value.host == Some(List(["{{" + BaseVariable(config) + "}}"])))
  {
    VariablesVisits(c, config);
    VariablesFailure(c, config);
    var w, w' := Walk(c.item), Walk(SetupVariables(c, Some(config)).value.item);
    forall i | 0 <= i < |w| && IsRequest(w[i]) && HasUrl(w[i].request.value)
      ensures w[i].request.value.url.value.UrlObject?
    {
      assert !StringUrl(w[i]);
    }
  }

  /** No step touches a method, a URL path or a `raw` URL. */
  lemma VariablesOfKeepsEndpoint(config: VariableConfig, x: Item)
    ensures Endpoint(VariablesOf(config, x)) == Endpoint(x)
  {
    var p := PathStepOf(config, x);
    assert Endpoint(p) == Endpoint(x);
    var h := HostHandler(BaseVariable(config), p);
    assert Endpoint(h) == Endpoint(p);
  }

  lemma VariablesKeepEndpoints(c: Collection, config: Option<VariableConfig>)
    requires SetupVariables(c, config).Success?
    ensures SameEndpoints(c.item, SetupVariables(c, config).value.item)
  {
    if config.Some? {
      VariablesVisits(c, config.value);
      var w, w' := Walk(c.item), Walk(SetupVariables(c, config).value.item);
      forall i | 0 <= i < |w| ensures Endpoint(w[i]) == Endpoint(w'[i]) {
        VariablesOfKeepsEndpoint(config.value, w[i]);
        assert Endpoint(w'[i]) == Endpoint(Strip(w'[i]));
      }
    } else {
      assert forall i :: 0 <= i < |Walk(c.item)| ==> Endpoint(Walk(c.item)[i]) == Endpoint(Walk(c.item)[i]);
    }
  }
}

=== FILE: walker.dfy ===
/** Traversal of the item tree and the node accessors every stage shares. */
module Walker {
  import opened Wrappers
  import opened Strings
  import opened Types

  /** The items `walkCollection(items, handler)` hands to `handler`, in call
      order: each item, then (when it carries an `item` array) its subtree,
      then its next sibling. */
  function Walk(items: seq<Item>): seq<Item>
    decreases items
  {
    if items == [] then [] else [items[0]] + WalkChildren(items[0]) + Walk(items[1..])
  }

  function WalkChildren(it: Item): seq<Item>
    decreases it
  {
    match it.children
    case NoItems => []
    case Items(cs) => Walk(cs)
  }

  /** `walkCollection` also accepts a missing array, and then calls nothing. */
  function WalkCollection(items: Option<seq<Item>>): (visits: seq<Item>)
    ensures items.None? ==> visits == []
    ensures items.Some? ==> |visits| == Size(items.value)
  {
    match items
    case None => []
    case Some(s) => WalkSize(s); Walk(s)
  }

  /** `x` is an item of `items` or of some item's `item` array, at any depth. */
  predicate Reachable(items: seq<Item>, x: Item)
    decreases items
  {
    exists i :: 0 <= i < |items| && (items[i] == x || ReachableBelow(items[i], x))
  }

  predicate ReachableBelow(it: Item, x: Item)
    decreases it
  {
    it.children.Items? && Reachable(it.children.items, x)
  }

  /** The number of occurrences of items in the tree. */
  function Size(items: seq<Item>): nat
    decreases items
  {
    if items == [] then 0 else 1 + SizeBelow(items[0]) + Size(items[1..])
  }

  function SizeBelow(it: Item): nat
    decreases it
  {
    match it.children
    case NoItems => 0
    case Items(cs) => Size(cs)
  }

  /** The handler is called once per occurrence of an item in the tree. */
  lemma {:induction false} WalkSize(items: seq<Item>)
    ensures |Walk(items)| == Size(items)
    decreases items
  {
    if items != [] {
      if items[0].children.Items? {
        WalkSize(items[0].children.items);
      }
      WalkSize(items[1..]);
    }
  }

  /** The handler sees exactly the reachable items. */
  lemma {:induction false} WalkVisitsReachable(items: seq<Item>, x: Item)
    ensures x in Walk(items) <==> Reachable(items, x)
    decreases items
  {
    if items != [] {
      var it := items[0];
      if it.children.Items? {
        WalkVisitsReachable(it.children.items, x);
      }
      WalkVisitsReachable(items[1..], x);
      if Reachable(items[1..], x) {
        var i :| 0 <= i < |items[1..]| && (items[1..][i] == x || ReachableBelow(items[1..][i], x));
        assert items[i + 1] == items[1..][i];
      }
      if Reachable(items, x) && !(x == it || ReachableBelow(it, x)) {
        var i :| 0 <= i < |items| && (items[i] == x || ReachableBelow(items[i], x));
        assert i > 0 && items[1..][i - 1] == items[i];
      }
    }
  }

  /** Siblings are visited in array order: walking a concatenation walks the
      first part, then the second. */
  lemma {:induction false} WalkAppend(a: seq<Item>, b: seq<Item>)
    ensures Walk(a + b) == Walk(a) + Walk(b)
    decreases a
  {
    if a != [] {
      assert (a + b)[0] == a[0] && (a + b)[1..] == a[1..] + b;
      WalkAppend(a[1..], b);
      calc {
        Walk(a + b);
        [a[0]] + WalkChildren(a[0]) + Walk(a[1..] + b);
        [a[0]] + WalkChildren(a[0]) + (Walk(a[1..]) + Walk(b));
      }
    } else {
      assert a + b == b;
    }
  }

  /** Parent before children: an item with an `item` array is followed in the
      visit order by the whole walk of that array, as one contiguous block. */
  lemma {:induction false} WalkParentFirst(items: seq<Item>, i: nat)
    requires i < |Walk(items)| && Walk(items)[i].children.Items?
    ensures i + 1 + |Walk(Walk(items)[i].children.items)| <= |Walk(items)|
    ensures Walk(items)[i + 1..i + 1 + |Walk(Walk(items)[i].children.items)|]
         == Walk(Walk(items)[i].children.items)
    decreases items, 1
  {
    var below := WalkChildren(items[0]);
    WalkUnfold(items);
    if i == 0 {
      SliceOfAppend([items[0]] + below, Walk(items[1..]), 1, 1 + |below|);
      SliceOfAppend([items[0]], below, 1, 1 + |below|);
    } else if i <= |below| {
      ParentFirstBelow(items, i);
    } else {
      ParentFirstAfter(items, i);
    }
  }

  /** The walk of a non-empty list: its first item, that item's subtree,
      then the rest. */
  lemma WalkUnfold(items: seq<Item>)
    requires items != []
    ensures Walk(items) == ([items[0]] + WalkChildren(items[0])) + Walk(items[1..])
  {
  }

  /** `WalkParentFirst` for a position inside the first item's subtree. */
  lemma {:induction false} ParentFirstBelow(items: seq<Item>, i: nat)
    requires items != [] && 1 <= i <= |WalkChildren(items[0])|
    requires i < |Walk(items)| && Walk(items)[i].children.Items?
    ensures i + 1 + |Walk(Walk(items)[i].children.items)| <= |Walk(items)|
    ensures Walk(items)[i + 1..i + 1 + |Walk(Walk(items)[i].children.items)|]
         == Walk(Walk(items)[i].children.items)
    decreases items, 0
  {
    WalkUnfold(items);
    var below := WalkChildren(items[0]);
    var head := [items[0]] + below;
    assert Walk(items)[i] == head[i] == below[i - 1];
    WalkParentFirst(items[0].children.items, i - 1);
    var n := |Walk(below[i - 1].children.items)|;
    SliceOfAppend(head, Walk(items[1..]), i + 1, i + 1 + n);
    SliceOfAppend([items[0]], below, i + 1, i + 1 + n);
  }

  /** `WalkParentFirst` for a position after the first item's subtree. */
  lemma {:induction false} ParentFirstAfter(items: seq<Item>, i: nat)
    requires items != [] && 1 + |WalkChildren(items[0])| <= i
    requires i < |Walk(items)| && Walk(items)[i].children.Items?
    ensures i + 1 + |Walk(Walk(items)[i].children.items)| <= |Walk(items)|
    ensures Walk(items)[i + 1..i + 1 + |Walk(Walk(items)[i].children.items)|]
         == Walk(Walk(items)[i].children.items)
    decreases items, 0
  {
    WalkUnfold(items);
    var head := [items[0]] + WalkChildren(items[0]);
    var rest := Walk(items[1..]);
    var j := i - 1 - |WalkChildren(items[0])|;
    assert Walk(items)[i] == rest[j];
    WalkParentFirst(items[1..], j);
    var n := |Walk(rest[j].children.items)|;
    SliceOfAppend(head, rest, i + 1, i + 1 + n);
  }

  /** A slice of a concatenation that lies within one of its parts. */
  lemma SliceOfAppend<T>(a: seq<T>, b: seq<T>, lo: nat, hi: nat)
    requires lo <= hi <= |a + b|
    ensures |a| <= lo ==> (a + b)[lo..hi] == b[lo - |a|..hi - |a|]
    ensures hi <= |a| ==> (a + b)[lo..hi] == a[lo..hi]
  {
  }

  /** `isRequest`: the item carries a `request`. */
  predicate IsRequest(it: Item) {
    it.request.Some?
  }

  /** `isFolder`: the item carries an `item` array and no `request`. */
  function IsFolder(it: Item): (r: bool)
    ensures r ==> !IsRequest(it)
    ensures !IsRequest(it) ==> (r <==> it.children.Items?)
  {
    it.children.Items? && it.request.None?
  }

  /** `getRequestMethod`: the request's method, or GET when it is missing or
      empty. */
  function GetRequestMethod(it: Item): (r: string)
    ensures r != ""
    ensures IsRequest(it) && it.request.value.verb != "" ==> r == it.request.value.verb
    ensures !IsRequest(it) || it.request.value.verb == "" ==> r == "GET"
  {
    if it.request.Some? && it.request.value.verb != "" then it.request.value.verb else "GET"
  }

  /** `getUrlPath` (it also receives a missing `url`). */
  function GetUrlPath(url: Option<Url>): (r: string)
    ensures url.Some? && url.value.UrlString? ==> r == url.value.text
    ensures url.Some? && url.value.UrlObject? && url.value.path.Some? && url.value.path.value.List? ==>
      r == "/" + Join(url.value.path.value.items, "/")
    ensures (url.Some? && url.value.UrlObject? && url.value.path.Some? && url.value.path.value.Str?
             && url.value.path.value.s != "") ==> r == url.value.path.value.s
    ensures url.Some? && url.value.UrlObject? && !PathIsSet(url.value) ==>
      r == (if NonEmpty(url.value.raw) then url.value.raw.value else "")
    ensures url.None? ==> r == ""
  {
    match url
    case None => ""
    case Some(UrlString(text)) => text
    case Some(u) =>
      if u.path.Some? && u.path.value.List? then "/" + Join(u.path.value.items, "/")
      else if u.path.Some? && u.path.value.s != "" then u.path.value.s
      else if NonEmpty(u.raw) then u.raw.value
      else ""
  }

  /** `url.path` is truthy: an array, or a non-empty string. */
  predicate PathIsSet(u: Url)
    requires u.UrlObject?
  {
    u.path.Some? && (u.path.value.List? || u.path.value.s != "")
  }

  // The in-place walk as a pure rewrite.

  /** `walkCollection(items, item => { ...update item... })`: every reachable
      item is replaced by `f` of it, in the same position. The rewrite keeps
      each item's own `item` array (rewritten in turn); no handler of the
      stages assigns to `item`. */
  function MapTree(items: seq<Item>, f: Item -> Item): (r: seq<Item>)
    ensures |r| == |items|
    decreases items
  {
    if items == [] then [] else [MapNode(items[0], f)] + MapTree(items[1..], f)
  }

  function MapNode(it: Item, f: Item -> Item): Item
    decreases it
  {
    f(it).(children := match it.children case NoItems => NoItems case Items(cs) => Items(MapTree(cs, f)))
  }

  /** An item with its children forgotten: what a handler sees and writes. */
  function Strip(it: Item): Item {
    it.(children := NoItems)
  }

  function StripAll(items: seq<Item>): (r: seq<Item>)
    ensures |r| == |items|
    ensures forall i :: 0 <= i < |items| ==> r[i] == Strip(items[i])
  {
    if items == [] then [] else [Strip(items[0])] + StripAll(items[1..])
  }

  function StripMap(items: seq<Item>, f: Item -> Item): (r: seq<Item>)
    ensures |r| == |items|
    ensures forall i :: 0 <= i < |items| ==> r[i] == Strip(f(items[i]))
  {
    if items == [] then [] else [Strip(f(items[0]))] + StripMap(items[1..], f)
  }

  lemma StripAllAppend(a: seq<Item>, b: seq<Item>)
    ensures StripAll(a + b) == StripAll(a) + StripAll(b)
  {
  }

  lemma StripMapAppend(a: seq<Item>, b: seq<Item>, f: Item -> Item)
    ensures StripMap(a + b, f) == StripMap(a, f) + StripMap(b, f)
  {
  }

  /** The rewrite calls `f` once per visited item, in walk order: the i-th
      visited item of the result is `f` of the i-th visited item of the
      input, up to children. */
  lemma {:induction false} MapTreeWalk(items: seq<Item>, f: Item -> Item)
    ensures StripAll(Walk(MapTree(items, f))) == StripMap(Walk(items), f)
    decreases items
  {
    if items != [] {
      var it := items[0];
      var n := MapNode(it, f);
      var m := MapTree(items, f);
      assert m[0] == n && m[1..] == MapTree(items[1..], f);
      if it.children.Items? {
        MapTreeWalk(it.children.items, f);
      }
      MapTreeWalk(items[1..], f);
      assert WalkChildren(n) == (match it.children case NoItems => [] case Items(cs) => Walk(MapTree(cs, f)));
      StripAllAppend([n] + WalkChildren(n), Walk(m[1..]));
      StripAllAppend([n], WalkChildren(n));
      StripMapAppend([it] + WalkChildren(it), Walk(items[1..]), f);
      StripMapAppend([it], WalkChildren(it), f);
    }
  }

  /** Pointwise reading of `MapTreeWalk`. */
  lemma MapTreeVisits(items: seq<Item>, f: Item -> Item)
    ensures |Walk(MapTree(items, f))| == |Walk(items)|
    ensures forall i :: 0 <= i < |Walk(items)| ==>
      Strip(Walk(MapTree(items, f))[i]) == Strip(f(Walk(items)[i]))
  {
    MapTreeWalk(items, f);
    assert |StripAll(Walk(MapTree(items, f)))| == |StripMap(Walk(items), f)|;
    forall i | 0 <= i < |Walk(items)|
      ensures Strip(Walk(MapTree(items, f))[i]) == Strip(f(Walk(items)[i]))
    {
      assert StripAll(Walk(MapTree(items, f)))[i] == StripMap(Walk(items), f)[i];
    }
  }

  /** A handler that leaves every visited item as it is leaves the tree as it
      is. */
  lemma {:induction false} MapTreeIdentity(items: seq<Item>, f: Item -> Item)
    requires forall x :: x in Walk(items) ==> f(x) == x
    ensures MapTree(items, f) == items
    decreases items
  {
    if items != [] {
      var it := items[0];
      assert it in Walk(items);
      if it.children.Items? {
        forall x | x in Walk(it.children.items) ensures f(x) == x {
          assert x in Walk(items);
        }
        MapTreeIdentity(it.children.items, f);
      }
      forall x | x in Walk(items[1..]) ensures f(x) == x {
        assert x in Walk(items);
      }
      MapTreeIdentity(items[1..], f);
    }
  }

  /** What the allow-list sees of an item: the method and URL path of a
      request, nothing of any other item. */
  function Endpoint(it: Item): (r: Option<(string, string)>)
    ensures r.Some? <==> IsRequest(it)
  {
    if IsRequest(it) then Some((GetRequestMethod(it), GetUrlPath(it.request.value.url))) else None
  }

  /** Two trees whose walks line up position by position, with the same
      endpoint at every position. */
  predicate SameEndpoints(a: seq<Item>, b: seq<Item>) {
    |Walk(a)| == |Walk(b)| && forall i :: 0 <= i < |Walk(a)| ==> Endpoint(Walk(a)[i]) == Endpoint(Walk(b)[i])
  }

  /** A handler that keeps every item's endpoint keeps the tree's endpoints. */
  lemma MapTreeKeepsEndpoints(items: seq<Item>, f: Item -> Item)
    requires forall x :: Endpoint(f(x)) == Endpoint(x)
    ensures SameEndpoints(items, MapTree(items, f))
  {
    MapTreeVisits(items, f);
    var w, m := Walk(items), Walk(MapTree(items, f));
    forall i | 0 <= i < |w| ensures Endpoint(w[i]) == Endpoint(m[i]) {
      assert Endpoint(m[i]) == Endpoint(Strip(m[i])) == Endpoint(Strip(f(w[i]))) == Endpoint(f(w[i]));
    }
  }

  lemma SameEndpointsTrans(a: seq<Item>, b: seq<Item>, c: seq<Item>)
    requires SameEndpoints(a, b) && SameEndpoints(b, c)
    ensures SameEndpoints(a, c)
  {
    forall i | 0 <= i < |Walk(a)| ensures Endpoint(Walk(a)[i]) == Endpoint(Walk(c)[i]) {
      assert Endpoint(Walk(a)[i]) == Endpoint(Walk(b)[i]);
    }
  }

  /** A handler that only reads the item itself, not its `item` array. */
  ghost predicate IgnoresChildren(g: Item -> Item) {
    forall x :: Strip(g(x)) == Strip(g(Strip(x)))
  }

  /** Chaining rewrites: when `mapped` lines up with `f` applied to the walk
      of `items`, rewriting `mapped` with `g` lines up with `f` then `g`. */
  lemma MapTreeThen(items: seq<Item>, mapped: seq<Item>, f: Item -> Item, g: Item -> Item)
    requires |Walk(mapped)| == |Walk(items)|
    requires forall i :: 0 <= i < |Walk(items)| ==> Strip(Walk(mapped)[i]) == Strip(f(Walk(items)[i]))
    requires IgnoresChildren(g)
    ensures |Walk(MapTree(mapped, g))| == |Walk(items)|
    ensures forall i :: 0 <= i < |Walk(items)| ==> Strip(Walk(MapTree(mapped, g))[i]) == Strip(g(f(Walk(items)[i])))
  {
    MapTreeVisits(mapped, g);
    var w, m, m' := Walk(items), Walk(mapped), Walk(MapTree(mapped, g));
    forall i | 0 <= i < |w| ensures Strip(m'[i]) == Strip(g(f(w[i]))) {
      calc {
        Strip(m'[i]);
        Strip(g(m[i]));
        Strip(g(Strip(m[i])));
        Strip(g(Strip(f(w[i]))));
        Strip(g(f(w[i])));
      }
    }
  }
}

=== FILE: wrappers.dfy ===
/** Option and Result, the two failure-compatible wrappers the model uses for
    JavaScript's `undefined` fields and for a stage that can throw. */
module Wrappers {

  datatype Option<+T> = None | Some(value: T) {

    /** The wrapped value, or `default` when there is none (JavaScript's `??`). */
    function GetOr(default: T): T {
      match this
      case Some(v) => v
      case None => default
    }
  }

  datatype Result<+R, +E> = Success(value: R) | Failure(error: E) {

    predicate IsFailure() {
      Failure?
    }

    function PropagateFailure<U>(): Result<U, E>
      requires Failure?
    {
      Failure(error)
    }

    function Extract(): R
      requires Success?
    {
      value
    }
  }
}
